=== FILE: README.md ===
# Kanban board core, modelled in Dafny

This project models the state engine of a React kanban board. Tasks live in a
map from id to record. Columns hold ordered lists of task ids and carry a
status. On top of these sit the following operations:

- moving a task within a column or between columns by drag-and-drop;
- adding, duplicating, updating, deleting and bulk-deleting tasks;
- task selection;
- search and priority filtering;
- column WIP-limit indicators;
- the task editor's form logic.

The three React state slices of `useKanbanBoard` (columns, tasks, selection)
and its two filter inputs are held as one immutable `BoardEngine.Board`. Every
callback is a pure function from one board to the next. The drag hook is a
small state machine (`DragAndDrop`). The board component's drop handler,
per-column projection and "Delete All" button are in `BoardView`. The task
dialog's submit and tag buttons are in `TaskForm`.

The central property is the consistency the board is meant to keep, stated in
`BoardInvariant.WellFormed`. It has three parts:

- every id in a column names a task whose status is that column's status;
- every task id sits exactly once across all columns;
- every record is stored under its own id.

The model proves which operations keep this invariant and under what
condition. It also proves where the source lets it break:

- a move whose `fromIndex` does not point at the task;
- adding a task whose status no column carries;
- a status change towards a status that no column, or several columns, carry.

Modules, one file each:

| file | module | models |
|---|---|---|
| sequences.dfy | Sequences | `splice`, `filter`, `indexOf`, `slice` on id lists |
| strings.dfy | Strings | `trim`, `toLowerCase`, `toUpperCase`, `includes`, `split`, `join` (ASCII) |
| kanban_types.dfy | KanbanTypes | task and column records, drafts, partial updates |
| task_utils.dfy | TaskUtils | `src/utils/task.utils.ts` |
| column_utils.dfy | ColumnUtils | `src/utils/column.utils.ts` |
| board_engine.dfy | BoardEngine | `src/hooks/useKanbanBoard.ts` |
| board_invariant.dfy | BoardInvariant | the task/column consistency invariant |
| drag_and_drop.dfy | DragAndDrop | `src/hooks/useDragAndDrop.ts` |
| board_view.dfy | BoardView | `handleDrop`, the column projection and "Delete All" in `KanbanBoard.tsx` |
| task_form.dfy | TaskForm | form loading, `handleSubmit`, `handleAddTag`, `handleRemoveTag` in `TaskModal.tsx` |

Values the source takes from the environment are parameters instead:

- the fresh id `task-${Date.now()}` and the creation time `new Date()`;
- the date formatting and parsing the dialog does through `Date`.

Behaviours of the code worth noting, each modelled as written:

- **Stale `fromIndex`.** `moveTask` does not check that `fromIndex` points at
  `taskId`: it moves whatever id sits there. It
  relabels `taskId` with the destination status all the same
  (`BoardInvariant.StaleIndexBreaksAgreement`). The drop handler always
  passes a fresh index, so it is safe (`BoardView.HandleDropPreservesWellFormed`).
- **Drag start while dragging.** A drag start during a drag is not ignored:
  it replaces the current drag (`DragAndDrop.DragStart`).
- **A drop that does not apply.** `handleDrop` itself ends the drag only when
  the move is made; when the drop does not apply it returns early and leaves
  the drag state to others (`BoardView.HandleDrop`). The dragged card's own
  `dragend` handler (`KanbanColumn.tsx:135`), which is not modelled, then
  returns the drag to idle (`DragAndDrop.DragEnd`).
- **Bulk delete and the selection.** Bulk delete clears the whole selection,
  not only the deleted ids (`BoardEngine.BulkDeleteTasks`).

## Model

| member | source | states |
|---|---|---|
| Sequences.RemoveAt | src/utils/task.utils.ts:67 | `splice(i, 1)` keeps the elements before `i`, shifts those after it left by one, and loses exactly the element at `i` |
| Sequences.InsertAt | src/utils/task.utils.ts:68 | `splice(j, 0, x)` places `x` at `j` clamped to the length, and removing it again gives back the list |
| Sequences.InsertAtRemoveAt | src/utils/task.utils.ts:66-69 | taking an element out and putting it back at the same index restores the list |
| Sequences.Without | src/hooks/useKanbanBoard.ts:118 | `filter(id => id !== x)` removes every copy of `x`, keeps every other element as often as before, keeps their order, and adds nothing |
| Sequences.WithoutAny | src/hooks/useKanbanBoard.ts:166 | `filter(id => !ids.includes(id))` removes every listed id, keeps every other element as often as before, and keeps their order |
| Sequences.WithoutAnyCons | src/hooks/useKanbanBoard.ts:156-168 | removing a list of ids at once equals removing the first id, then the rest |
| Sequences.IndexOf | src/components/KanbanBoard/KanbanBoard.tsx:77 | `indexOf` is -1 exactly when the id is absent; otherwise it is the first position holding the id |
| Strings.Trim | src/components/KanbanBoard/TaskModal.tsx:64 | the trimmed string is empty exactly when every character is whitespace; otherwise it starts and ends with a non-whitespace character |
| Strings.TrimIsSlice | src/components/KanbanBoard/TaskModal.tsx:64 | the trimmed string is a contiguous slice of the input, and everything cut from either end is whitespace |
| Strings.ToLower | src/hooks/useKanbanBoard.ts:199-201 | lower-casing keeps the length and maps each character on its own |
| Strings.ContainsIsSubstring | src/hooks/useKanbanBoard.ts:199-201 | `includes` holds exactly when the needle occurs as a contiguous slice at some position |
| Strings.ToUpper | src/utils/task.utils.ts:27 | upper-casing keeps the length and maps each character on its own |
| Strings.Split | src/utils/task.utils.ts:24 | `split(' ')` yields at least one piece, and no piece contains the separator |
| Strings.JoinSplit | src/utils/task.utils.ts:24 | joining the pieces of a split with the separator restores the string, so the split loses nothing |
| KanbanTypes.NewTask | src/hooks/useKanbanBoard.ts:51-55 | a new task carries every field of the draft, plus the given id and creation time |
| KanbanTypes.Merge | src/hooks/useKanbanBoard.ts:76-79 | spreading a patch over a task keeps its id, and every other field takes the patch's value when the patch has that key and keeps the task's value otherwise |
| KanbanTypes.MergeLaws | src/hooks/useKanbanBoard.ts:76-79 | merging an empty patch changes nothing, and merging the same patch twice equals merging it once |
| TaskUtils.Reorder | src/utils/task.utils.ts:61-70 | `reorderTasks` is a permutation; the moved id lands at the target clamped against the shortened list; the other ids keep their relative order |
| TaskUtils.ReorderSameIndex | src/utils/task.utils.ts:61-70 | dropping an id at the index it was taken from leaves the column unchanged |
| TaskUtils.ReorderUndo | src/utils/task.utils.ts:61-70 | dragging the id back from where it landed to its old index restores the column |
| TaskUtils.ReorderExample | src/utils/task.utils.ts:61-70 | moving the first of four ids to index 2 puts it third: the target counts against the shortened list |
| TaskUtils.MoveBetweenColumns | src/utils/task.utils.ts:72-87 | the id leaves the source and enters the destination at the clamped index; the other ids keep their places; together the two columns lose and gain nothing |
| TaskUtils.MoveBetweenColumnsUndo | src/utils/task.utils.ts:72-87 | moving the id back from where it landed to its old index restores both columns |
| TaskUtils.HeadsOfSplit | src/utils/task.utils.ts:23-26 | the first characters of the pieces of `split(' ')` are exactly the characters that start a word |
| TaskUtils.Initials | src/utils/task.utils.ts:22-29 | `getInitials` gives at most two characters: the upper-cased starts of the first words, never a space |
| TaskUtils.PriorityLabel | src/utils/task.utils.ts:41-49 | the label is the priority's key with its first letter upper-cased |
| TaskUtils.PriorityColor | src/utils/task.utils.ts:31-39 | the class string starts with the left border in the priority's own colour |
| TaskUtils.StatusColor | src/utils/task.utils.ts:51-59 | every status colour is a `bg-status-` background class |
| TaskUtils.LookupsInjective | src/utils/task.utils.ts:31-59 | different priorities get different labels and different colour classes, and different statuses get different colours |
| ColumnUtils.ColumnProgress | src/utils/column.utils.ts:6-9 | the progress is 0 without a limit, and never above 100 |
| ColumnUtils.ProgressBounds | src/utils/column.utils.ts:6-9 | with a limit and a non-negative count, the progress lies in [0, 100] and reaches 100 exactly when the count reaches the limit |
| ColumnUtils.IsNearWipLimit | src/utils/column.utils.ts:14-17 | near the limit exactly when a limit is set and five times the count is at least four times the limit |
| ColumnUtils.IsAtWipLimit | src/utils/column.utils.ts:22-25 | at the limit exactly when a limit is set and the count has reached it; never without a limit, and a column at its limit is also near it |
| ColumnUtils.CanAddTaskToColumn | src/utils/column.utils.ts:54-57 | a task can be added exactly when the column is not at its limit; always when no limit is set |
| ColumnUtils.Present | src/utils/column.utils.ts:39-41 | the projection yields only stored records, never more than the ids; with every id known, exactly their records in order; with none known, nothing |
| ColumnUtils.PresentAppend | src/utils/column.utils.ts:39-41 | projecting a concatenation is the concatenation of the projections, so the relative order is kept |
| ColumnUtils.CountTwoPriorities | src/utils/column.utils.ts:45-46 | no task is counted as both high and urgent |
| ColumnUtils.CountPriorityIsMultiplicity | src/utils/column.utils.ts:45-46 | the count of a priority is how many of the records carry it |
| ColumnUtils.GetColumnStats | src/utils/column.utils.ts:30-49 | the total is the number of known ids in the column; the high and urgent counts are how many of those records carry each priority, and together never exceed the total; with every id known the total is the column's length |
| BoardEngine.InitialBoard | src/hooks/useKanbanBoard.ts:6-10 | the board starts from the given columns and tasks, with an empty selection, an empty query and the `'all'` filter |
| BoardEngine.FindColumn | src/hooks/useKanbanBoard.ts:16-17 | `find` returns the first column with the id, and returns nothing exactly when no column has it |
| BoardEngine.MoveTask | src/hooks/useKanbanBoard.ts:12-49 | with a missing column nothing changes; otherwise column shapes and task keys are kept, and selection and filters are untouched |
| BoardEngine.MoveToMissingColumn | src/hooks/useKanbanBoard.ts:16-19 | a move naming a missing source or destination column is accepted with any index and changes nothing |
| BoardEngine.MoveWithinColumn | src/hooks/useKanbanBoard.ts:21-23 | a same-column move rewrites only that column, to `reorderTasks` of it, and touches no task |
| BoardEngine.MoveAcrossColumns | src/hooks/useKanbanBoard.ts:24-43 | a cross-column move rewrites exactly the two columns and changes only `taskId`'s status, to the destination's |
| BoardEngine.MoveTaskConservesIds | src/hooks/useKanbanBoard.ts:12-49 | a move never creates or loses an id across the columns |
| BoardEngine.AddTask | src/hooks/useKanbanBoard.ts:50-71 | the new record is stored under the fresh id and is appended to every column with the draft's status; other records and columns are unchanged, every column keeps its id, title, status and limit, and selection and filters are untouched |
| BoardEngine.InsertTask | src/hooks/useKanbanBoard.ts:57-68 | storing a task adds exactly its key and appends its id to the columns with its status only; selection and filters are untouched |
| BoardEngine.OccurrencesAppendWhere | src/hooks/useKanbanBoard.ts:62-68 | appending to every column with a status places the id once per such column |
| BoardEngine.CopyOf | src/hooks/useKanbanBoard.ts:133-138 | the copy differs from the original only in id, creation time and the ` (Copy)` title suffix |
| BoardEngine.DuplicateTask | src/hooks/useKanbanBoard.ts:129-154 | an unknown id changes nothing; otherwise the copy is stored and placed like a new task |
| BoardEngine.UpdateTask | src/hooks/useKanbanBoard.ts:73-106 | the record becomes the merge; the columns change only on a real status change, and then the id is relocated from the old status's columns to the new |
| BoardEngine.Relocate | src/hooks/useKanbanBoard.ts:86-103 | columns of the old status lose the id, columns of the new status gain it at the end, and other columns are unchanged |
| BoardEngine.OccurrencesRelocate | src/hooks/useKanbanBoard.ts:82-104 | after relocation the id occurs once per column of the new status, and other ids are unaffected |
| BoardEngine.DeleteTask | src/hooks/useKanbanBoard.ts:108-127 | the record, every occurrence of the id in every column, and the id in the selection are gone; every other id keeps its count in every column and its order; query and filter are untouched |
| BoardEngine.OccurrencesRemoveEverywhere | src/hooks/useKanbanBoard.ts:115-120 | after deletion the id occurs nowhere, and other ids occur as often as before |
| BoardEngine.DeleteTaskIdempotent | src/hooks/useKanbanBoard.ts:108-127 | deleting twice is deleting once |
| BoardEngine.BulkDeleteTasks | src/hooks/useKanbanBoard.ts:156-171 | the listed ids leave the map and every column; every other id keeps its count in every column and its order; absent ids are skipped; the whole selection is cleared; query and filter are untouched |
| BoardEngine.OccurrencesRemoveAny | src/hooks/useKanbanBoard.ts:163-168 | after bulk deletion no listed id occurs, and other ids occur as often as before |
| BoardEngine.BulkDeleteIsDeleteEach | src/hooks/useKanbanBoard.ts:156-171 | bulk deletion equals deleting the ids one at a time, then clearing the selection |
| BoardEngine.BulkDeleteIdempotent | src/hooks/useKanbanBoard.ts:156-171 | bulk-deleting the same list twice is bulk-deleting it once |
| BoardEngine.ToggleTaskSelection | src/hooks/useKanbanBoard.ts:173-183 | toggling flips the membership of that id only, and changes nothing else on the board |
| BoardEngine.ToggleTwice | src/hooks/useKanbanBoard.ts:173-183 | toggling twice restores the board |
| BoardEngine.SelectAllTasks | src/hooks/useKanbanBoard.ts:185-187 | the selection becomes exactly the set of task keys, whatever the filter shows |
| BoardEngine.ClearSelection | src/hooks/useKanbanBoard.ts:189-191 | the selection becomes empty, and nothing else changes |
| BoardEngine.SelectAllThenDelete | src/hooks/useKanbanBoard.ts:122-126 | after select-all, deleting one task leaves exactly the remaining tasks selected |
| BoardEngine.FilteredTasks | src/hooks/useKanbanBoard.ts:193-213 | the filtered map keeps a record unchanged exactly when it passes both the search and the priority test |
| BoardEngine.QueryIsCaseInsensitiveSubstring | src/hooks/useKanbanBoard.ts:196-203 | a non-empty query keeps a task exactly when the lower-cased query occurs in the lower-cased title, description or assignee |
| BoardEngine.FilterWithoutQuery | src/hooks/useKanbanBoard.ts:196-207 | with no query, `'all'` keeps every task, and one priority keeps exactly the tasks with it |
| BoardEngine.PriorityFilterNarrows | src/hooks/useKanbanBoard.ts:205-207 | choosing a priority only hides tasks that `'all'` would show |
| BoardEngine.SetSearchQuery | src/hooks/useKanbanBoard.ts:8 | only the query changes |
| BoardEngine.SetFilterPriority | src/hooks/useKanbanBoard.ts:9 | only the priority filter changes |
| BoardInvariant.MoveTaskPreservesWellFormed | src/hooks/useKanbanBoard.ts:12-49 | a move whose `fromIndex` points at `taskId` keeps the board consistent |
| BoardInvariant.MoveKeepsPlacement | src/hooks/useKanbanBoard.ts:12-49 | a move keeps every task placed exactly once and every record under its id |
| BoardInvariant.MoveWithinKeepsAgreement | src/hooks/useKanbanBoard.ts:21-23 | a same-column reorder keeps every id's status in agreement with its column |
| BoardInvariant.MoveAcrossKeepsAgreement | src/hooks/useKanbanBoard.ts:24-43 | a cross-column move of the indexed task keeps every status in agreement with its column |
| BoardInvariant.StaleIndexBreaksAgreement | src/hooks/useKanbanBoard.ts:26-42 | when `fromIndex` points at another id and the columns differ in status, that id lands in the destination still carrying the source's status |
| BoardInvariant.InsertTaskWellFormed | src/hooks/useKanbanBoard.ts:57-68 | storing a task under a fresh id keeps the board consistent exactly when one column carries its status |
| BoardInvariant.AddTaskWellFormed | src/hooks/useKanbanBoard.ts:50-71 | `addTask` with a fresh id keeps the board consistent exactly when one column carries the draft's status |
| BoardInvariant.AddTaskOrphans | src/hooks/useKanbanBoard.ts:62-68 | with no column for the status, the new task is stored but shown in no column |
| BoardInvariant.DuplicateTaskWellFormed | src/hooks/useKanbanBoard.ts:129-154 | duplicating keeps the board consistent exactly when one column carries the original's status |
| BoardInvariant.UpdateTaskWellFormed | src/hooks/useKanbanBoard.ts:73-106 | an update keeps the board consistent exactly when the status is kept or one column carries the new status |
| BoardInvariant.DeleteTaskPreservesWellFormed | src/hooks/useKanbanBoard.ts:108-127 | deleting a task keeps the board consistent |
| BoardInvariant.DeleteTaskPlacedOnce | src/hooks/useKanbanBoard.ts:108-120 | deleting a task keeps every remaining task placed exactly once |
| BoardInvariant.DeleteTaskStatusAgrees | src/hooks/useKanbanBoard.ts:108-120 | deleting a task keeps every remaining column entry in status agreement |
| BoardInvariant.ShrinkKeepsAgreement | src/hooks/useKanbanBoard.ts:156-168 | dropping ids from columns and records from the map keeps status agreement, provided every id left keeps its record |
| BoardInvariant.BulkDeletePreservesWellFormed | src/hooks/useKanbanBoard.ts:156-171 | bulk deletion keeps the board consistent |
| BoardInvariant.BulkDeletePlacedOnce | src/hooks/useKanbanBoard.ts:156-168 | bulk deletion keeps every remaining task placed exactly once |
| DragAndDrop.DragStart | src/hooks/useDragAndDrop.ts:20-28 | a drag start records the task and source column, clears the hover target, and replaces any drag in progress |
| DragAndDrop.DragOver | src/hooks/useDragAndDrop.ts:30-36 | a hover records the target column and index and changes nothing else |
| DragAndDrop.DragEnd | src/hooks/useDragAndDrop.ts:38-46 | ending a drag returns to the idle state from any state |
| DragAndDrop.ResetDrag | src/hooks/useDragAndDrop.ts:48-56 | `resetDrag` clears every field |
| DragAndDrop.ResetIsDragEnd | src/hooks/useDragAndDrop.ts:38-56 | `resetDrag` and `handleDragEnd` give the same state from every state |
| DragAndDrop.TransitionsKeepCoherent | src/hooks/useDragAndDrop.ts:20-56 | every transition keeps the dragging flag set exactly when a task and a source column are recorded |
| DragAndDrop.HoverIsForgotten | src/hooks/useDragAndDrop.ts:20-46 | the last hover wins, and a drag that starts or ends afterwards forgets it |
| DragAndDrop.HoverWhileIdle | src/hooks/useDragAndDrop.ts:30-36 | a hover while idle is recorded although nothing is dragged |
| BoardView.WellFormedIdsKnown | src/components/KanbanBoard/KanbanBoard.tsx:72-80 | on a consistent board, every id a column lists has a record, which is what the drop needs |
| BoardView.HandleDrop | src/components/KanbanBoard/KanbanBoard.tsx:68-84 | a drop with a dragged task, both columns, and the task still listed in its source column moves it using its current index and ends the drag; any other drop changes nothing |
| BoardView.DropWhileIdle | src/components/KanbanBoard/KanbanBoard.tsx:70 | a drop while nothing is dragged changes nothing |
| BoardView.HandleDropPreservesWellFormed | src/components/KanbanBoard/KanbanBoard.tsx:68-84 | a drop keeps a consistent board consistent, and the dragged task ends up in the target column with the target's status |
| BoardView.ColumnTasks | src/components/KanbanBoard/KanbanBoard.tsx:151-153 | a column shows only stored records that pass the search and the priority filter, and never more than it lists |
| BoardView.ColumnTasksIsShown | src/components/KanbanBoard/KanbanBoard.tsx:151-153 | a column shows exactly the records of its listed ids that pass both filters, in column order |
| BoardView.ColumnTasksComplete | src/components/KanbanBoard/KanbanBoard.tsx:151-153 | every listed id whose record passes both filters has its record shown |
| BoardView.ColumnTasksUnfiltered | src/components/KanbanBoard/KanbanBoard.tsx:151-153 | with no query and the `'all'` filter, a column of known ids shows the record of every id, in order |
| BoardView.ColumnTasksSplit | src/components/KanbanBoard/KanbanBoard.tsx:151-153 | the projection of a column split in two is the concatenation of the two projections, so order is kept |
| BoardView.DeleteSelected | src/components/KanbanBoard/KanbanBoard.tsx:189 | "Delete All" is `bulkDeleteTasks` of the selection: it removes exactly the selected records, leaves no selected id in any column, and clears the selection |
| BoardView.WithoutAnySameMembers | src/hooks/useKanbanBoard.ts:166 | filtering by a list depends only on which ids the list holds |
| BoardView.DeleteSelectedOrderIrrelevant | src/components/KanbanBoard/KanbanBoard.tsx:189 | the order `Array.from` lists the selection in does not change the result |
| BoardView.DeleteSelectedPreservesWellFormed | src/components/KanbanBoard/KanbanBoard.tsx:189 | "Delete All" keeps a consistent board consistent |
| TaskForm.OrEmpty | src/components/KanbanBoard/TaskModal.tsx:39 | an absent text field shows as the empty string, and a present one as itself |
| TaskForm.NonEmpty | src/components/KanbanBoard/TaskModal.tsx:68 | an empty text field becomes absent, and any other text is kept as it is |
| TaskForm.BlankForm | src/components/KanbanBoard/TaskModal.tsx:46-55 | the create form is empty, with medium priority and the status it was opened for |
| TaskForm.LoadForm | src/components/KanbanBoard/TaskModal.tsx:35-57 | opening a task shows its fields; absent text shows as empty, an absent priority as medium, absent tags as none, and the due date formatted |
| TaskForm.FormToDraft | src/components/KanbanBoard/TaskModal.tsx:66-74 | on submit, empty text and an empty tag list become absent, the date string is parsed, the priority is always present, and the title is kept untrimmed |
| TaskForm.DraftPatch | src/components/KanbanBoard/TaskModal.tsx:76-77 | the update sent on save sets title and status and never touches the creation time |
| TaskForm.SaveReplacesFields | src/components/KanbanBoard/TaskModal.tsx:76-77 | saving replaces every field but the id and creation time, clearing optional fields the form left empty |
| TaskForm.Submit | src/components/KanbanBoard/TaskModal.tsx:61-83 | a blank title does nothing; otherwise an open task is saved with the form's fields, or a new task is created when creation is possible |
| TaskForm.BlankTitleIgnored | src/components/KanbanBoard/TaskModal.tsx:64 | a submission is refused exactly when its title is all whitespace, whatever the other fields hold |
| TaskForm.SpacesAndTabIgnored | src/components/KanbanBoard/TaskModal.tsx:64 | a title of spaces and a tab is refused, although it is not empty |
| TaskForm.SaveUnedited | src/components/KanbanBoard/TaskModal.tsx:35-83 | opening a task and saving without edits leaves it unchanged exactly when the form can represent every field of it |
| TaskForm.SaveAssignsPriority | src/components/KanbanBoard/TaskModal.tsx:40 | saving an unedited task without a priority gives it medium priority |
| TaskForm.FormRoundTrip | src/components/KanbanBoard/TaskModal.tsx:36-74 | a form turned into a task and loaded back is the same form, when the date format reproduces the typed date |
| TaskForm.AddTag | src/components/KanbanBoard/TaskModal.tsx:85-93 | the trimmed input is appended and the box cleared, unless it is blank or already listed |
| TaskForm.RemoveTag | src/components/KanbanBoard/TaskModal.tsx:95-100 | every copy of the tag is removed and the other tags are kept, as often as before and in their order |
| TaskForm.AddTagKeepsTagsClean | src/components/KanbanBoard/TaskModal.tsx:85-93 | adding never creates a duplicate or a blank tag, and keeps the existing tags in front |
| TaskForm.AddTagIdempotent | src/components/KanbanBoard/TaskModal.tsx:85-93 | adding the same text again changes nothing more |
| TaskForm.RemoveUndoesAdd | src/components/KanbanBoard/TaskModal.tsx:85-100 | removing a tag just added restores the list |
| TaskForm.WithoutAppendLast | src/components/KanbanBoard/TaskModal.tsx:95-100 | filtering out a value that was only appended at the end restores the list before it |
| TaskForm.ApplySubmission | src/components/KanbanBoard/KanbanBoard.tsx:206-214 | a save is `updateTask` of the patch and a create is `addTask` of the draft, as the dialog is wired; a save keeps the task keys, a create stores exactly the draft under the fresh id; anything else changes nothing |
| TaskForm.CreateStoresForm | src/components/KanbanBoard/TaskModal.tsx:61-83 | a task created from the dialog loads back into the same form |

## Left out

- BoardEngine.MoveTask: when both columns exist, requires `fromIndex` to be a position in the source column and, for a move between the two, the task record to exist. With an index past the end the source's `splice(fromIndex, 1)` removes nothing and the following `splice` inserts `undefined` into the destination (`task.utils.ts:66-68`, `79-80`), which a list of ids cannot hold; `handleDrop`, the only caller in the board, always passes the task's current index (`KanbanBoard.tsx:77-80`). Without the record the source writes a record holding only a status, which has no counterpart in the typed record. With a missing column any index is accepted (`BoardEngine.MoveToMissingColumn`).
- BoardView.HandleDrop: requires every id a column lists to have a record, because it calls `BoardEngine.MoveTask`; every consistent board meets this (`BoardView.WellFormedIdsKnown`).
- BoardEngine.UpdateTask: requires the record to exist. For a missing record the source reads `tasks[taskId].status`, which throws when the patch carries a status; when it carries none, the source stores `{...undefined, ...updates}`, a record holding only the patched keys (`useKanbanBoard.ts:75-80`), which has no counterpart in the typed record.
- BoardEngine.FilteredTasks: keys the result by the map key. The source re-keys by `task.id`; the two agree whenever every record is stored under its own id (`BoardInvariant.KeysMatchIds`).
- ColumnUtils.ColumnProgress: computes over exact reals, so floating-point rounding of the percentage is not modelled.
- ColumnUtils.IsNearWipLimit: compares the count with four fifths of the limit exactly. The source compares with a rounded double `maxTasks * 0.8`, and that rounding is not modelled.
- ColumnUtils.GetColumnStats: omits the `overdue` count, which reads the clock.
- KanbanTypes.TaskPatch: has no `id` key. An update that renamed a record's id would break the key/id agreement, and no caller sends one.
- Negative, fractional or `NaN` indices to `splice` are not modelled. Indices are natural numbers; an insertion index past the end is clamped as `splice` does.
- Strings: trimming and case conversion cover ASCII only. Unicode whitespace, case mapping and UTF-16 code units are not modelled.
- The clock: `isOverdue`, `isToday` and `formatDate` in `task.utils.ts` and the `Date.now()` ids are left out. Ids and times are parameters, and the invariant lemmas require the fresh id to be unused. The source's ids can collide within one millisecond.
- React itself is not modelled:
  - the `moveTask` updater mutates the previous column objects in place;
  - `setTasks` is called from inside a `setColumns` updater;
  - `updateTask` and `duplicateTask` read `tasks` from a closure that may be stale.
  Under batching or double-invoked updaters these can differ from the sequential semantics modelled here.
- The `confirm` dialog before "Delete All" is not modelled. `BoardView.DeleteSelected` is the confirmed branch.
- Modal open/close flags and the `selectedTask` state of `KanbanBoard.tsx` are not modelled. `TaskForm.Submission` tells whether the dialog closes.
- The drop index computed by `KanbanColumn.tsx` against the filtered list is not modelled. `KanbanColumn.tsx`, `KanbanCard.tsx`, `useKeyboardNavigation.ts`, the primitives and all rendering are not part of this model.

=== FILE: board_engine.dfy ===
/** The board engine of `useKanbanBoard`: the column list, the task map, the
    selection and the two filter inputs held as one `Board` value, and every
    callback of the hook as a pure transition on it. The fresh task id and the
    creation time, which the source takes from the clock, are parameters. */
module BoardEngine {
  import opened KanbanTypes
  import opened Sequences
  import opened Strings
  import TaskUtils

  /** The priority menu: `'all'` or one priority. */
  datatype PriorityFilter = AllPriorities | OnlyPriority(priority: Priority)

  datatype Board = Board(
    columns: seq<Column>,
    tasks: map<string, Task>,
    selected: set<string>,
    searchQuery: string,
    filterPriority: PriorityFilter)

  /** The hook's initial state: the caller's columns and tasks, an empty
      selection, an empty query and the `'all'` filter. */
  function InitialBoard(columns: seq<Column>, tasks: map<string, Task>): (b: Board)
    ensures b.columns == columns && b.tasks == tasks
    ensures b.selected == {} && b.searchQuery == [] && b.filterPriority == AllPriorities
  {
    Board(columns, tasks, {}, "", AllPriorities)
  }

  // ---------------------------------------------------------------------------
  // Column lookup and per-column rewrites
  // ---------------------------------------------------------------------------

  /** `columns.find(col => col.id === id)`: the index of the first column with that id. */
  function FindColumn(cols: seq<Column>, id: string): (r: Option<nat>)
    ensures r.Some? ==> r.value < |cols| && cols[r.value].id == id
    ensures r.Some? ==> forall k :: 0 <= k < r.value ==> cols[k].id != id
    ensures r.None? <==> forall k :: 0 <= k < |cols| ==> cols[k].id != id
  {
    if |cols| == 0 then None
    else if cols[0].id == id then Some(0)
    else
      match FindColumn(cols[1..], id)
      case None => None
      case Some(k) => Some(k + 1)
  }

  /** A column without its id sequence: the part no board operation changes. */
  function Shape(c: Column): Column
  {
    c.(taskIds := [])
  }

  /** `columns.map(col => col.status === status ? {...col, taskIds: [...col.taskIds, id]} : col)`. */
  function AppendWhere(cols: seq<Column>, status: TaskStatus, id: string): (r: seq<Column>)
    ensures |r| == |cols|
    ensures forall k :: 0 <= k < |cols| ==> Shape(r[k]) == Shape(cols[k])
    ensures forall k :: 0 <= k < |cols| ==>
      r[k].taskIds == (if cols[k].status == status then cols[k].taskIds + [id] else cols[k].taskIds)
  {
    if |cols| == 0 then []
    else
      var c := cols[0];
      [if c.status == status then c.(taskIds := c.taskIds + [id]) else c] + AppendWhere(cols[1..], status, id)
  }

  /** Every column with `id` filtered out of its sequence. */
  function RemoveEverywhere(cols: seq<Column>, id: string): (r: seq<Column>)
    ensures |r| == |cols|
    ensures forall k :: 0 <= k < |cols| ==> Shape(r[k]) == Shape(cols[k])
    ensures forall k :: 0 <= k < |cols| ==> r[k] == cols[k].(taskIds := Without(cols[k].taskIds, id))
  {
    if |cols| == 0 then []
    else [cols[0].(taskIds := Without(cols[0].taskIds, id))] + RemoveEverywhere(cols[1..], id)
  }

  /** Every column with the ids listed in `ids` filtered out of its sequence. */
  function RemoveAnyEverywhere(cols: seq<Column>, ids: seq<string>): (r: seq<Column>)
    ensures |r| == |cols|
    ensures forall k :: 0 <= k < |cols| ==> Shape(r[k]) == Shape(cols[k])
    ensures forall k :: 0 <= k < |cols| ==> r[k] == cols[k].(taskIds := WithoutAny(cols[k].taskIds, ids))
  {
    if |cols| == 0 then []
    else [cols[0].(taskIds := WithoutAny(cols[0].taskIds, ids))] + RemoveAnyEverywhere(cols[1..], ids)
  }

  /** The column rewrite of `updateTask` on a status change: `id` is filtered
      out of every column with the old status and appended to every column with
      the new one. */
  function Relocate(cols: seq<Column>, id: string, from: TaskStatus, to: TaskStatus): (r: seq<Column>)
    ensures |r| == |cols|
    ensures forall k :: 0 <= k < |cols| ==> Shape(r[k]) == Shape(cols[k])
    ensures forall k :: 0 <= k < |cols| ==>
      r[k].taskIds == (if cols[k].status == from then Without(cols[k].taskIds, id)
                       else if cols[k].status == to then cols[k].taskIds + [id]
                       else cols[k].taskIds)
  {
    if |cols| == 0 then []
    else
      var c := cols[0];
      var c' := if c.status == from then c.(taskIds := Without(c.taskIds, id))
                else if c.status == to then c.(taskIds := c.taskIds + [id])
                else c;
      [c'] + Relocate(cols[1..], id, from, to)
  }

  // ---------------------------------------------------------------------------
  // Counting ids across the columns
  // ---------------------------------------------------------------------------

  /** How many times `x` appears across all column sequences. */
  function Occurrences(cols: seq<Column>, x: string): nat
  {
    if |cols| == 0 then 0 else multiset(cols[0].taskIds)[x] + Occurrences(cols[1..], x)
  }

  /** How many columns carry the given status. */
  function NumWithStatus(cols: seq<Column>, status: TaskStatus): nat
  {
    if |cols| == 0 then 0 else (if cols[0].status == status then 1 else 0) + NumWithStatus(cols[1..], status)
  }

  /** Replacing one column's sequence changes the count by the difference of the two sequences. */
  lemma {:induction false} OccurrencesReplace(cols: seq<Column>, k: nat, c: Column, x: string)
    requires k < |cols|
    ensures Occurrences(cols[k := c], x) + multiset(cols[k].taskIds)[x]
         == Occurrences(cols, x) + multiset(c.taskIds)[x]
  {
    if k == 0 {
      assert cols[k := c][1..] == cols[1..];
    } else {
      OccurrencesReplace(cols[1..], k - 1, c, x);
      assert cols[k := c][1..] == cols[1..][k - 1 := c];
    }
  }

  /** One column never holds more copies of `x` than all columns together, and two distinct columns neither. */
  lemma OccurrencesOfColumns(cols: seq<Column>, j: nat, k: nat, x: string)
    requires j < |cols| && k < |cols|
    ensures multiset(cols[k].taskIds)[x] <= Occurrences(cols, x)
    ensures j != k ==> multiset(cols[j].taskIds)[x] + multiset(cols[k].taskIds)[x] <= Occurrences(cols, x)
  {
    var emptied := cols[k := cols[k].(taskIds := [])];
    OccurrencesReplace(cols, k, cols[k].(taskIds := []), x);
    if j != k {
      OccurrencesReplace(emptied, j, emptied[j].(taskIds := []), x);
    }
  }

  lemma {:induction false} OccurrencesAppendWhere(cols: seq<Column>, status: TaskStatus, id: string, x: string)
    ensures Occurrences(AppendWhere(cols, status, id), x)
         == Occurrences(cols, x) + (if x == id then NumWithStatus(cols, status) else 0)
  {
    if |cols| > 0 {
      OccurrencesAppendWhere(cols[1..], status, id, x);
      assert AppendWhere(cols, status, id)[1..] == AppendWhere(cols[1..], status, id);
    }
  }

  lemma {:induction false} OccurrencesRemoveEverywhere(cols: seq<Column>, id: string, x: string)
    ensures Occurrences(RemoveEverywhere(cols, id), x) == (if x == id then 0 else Occurrences(cols, x))
  {
    if |cols| > 0 {
      OccurrencesRemoveEverywhere(cols[1..], id, x);
      assert RemoveEverywhere(cols, id)[1..] == RemoveEverywhere(cols[1..], id);
    }
  }

  lemma {:induction false} OccurrencesRemoveAny(cols: seq<Column>, ids: seq<string>, x: string)
    ensures Occurrences(RemoveAnyEverywhere(cols, ids), x) == (if x in ids then 0 else Occurrences(cols, x))
  {
    if |cols| > 0 {
      OccurrencesRemoveAny(cols[1..], ids, x);
      assert RemoveAnyEverywhere(cols, ids)[1..] == RemoveAnyEverywhere(cols[1..], ids);
      var s := cols[0].taskIds;
      if x !in ids && x !in s {
        assert x !in WithoutAny(s, ids);
      }
    }
  }

  /** The count of `x` in one column after the rewrite of `Relocate`, when `id`
      can only sit there if the column has the old status. */
  lemma RelocatedColumnCount(c: Column, id: string, from: TaskStatus, to: TaskStatus, x: string)
    requires from != to
    requires id in c.taskIds ==> c.status == from
    ensures var s' := if c.status == from then Without(c.taskIds, id)
                      else if c.status == to then c.taskIds + [id]
                      else c.taskIds;
            multiset(s')[x] == (if x == id then (if c.status == to then 1 else 0) else multiset(c.taskIds)[x])
  {
    if c.status != from {
      assert multiset(c.taskIds)[id] == 0;
    }
  }

  /** When `id` sits only in columns with the old status, relocating it leaves
      one copy in each column with the new status. */
  lemma {:induction false} OccurrencesRelocate(cols: seq<Column>, id: string, from: TaskStatus, to: TaskStatus, x: string)
    requires from != to
    requires forall k :: 0 <= k < |cols| && id in cols[k].taskIds ==> cols[k].status == from
    ensures Occurrences(Relocate(cols, id, from, to), x)
         == (if x == id then NumWithStatus(cols, to) else Occurrences(cols, x))
  {
    if |cols| > 0 {
      var rest := cols[1..];
      assert forall k :: 0 <= k < |rest| ==> rest[k] == cols[k + 1];
      OccurrencesRelocate(rest, id, from, to, x);
      var r := Relocate(cols, id, from, to);
      assert r[1..] == Relocate(rest, id, from, to);
      RelocatedColumnCount(cols[0], id, from, to, x);
      assert Occurrences(r, x) == multiset(r[0].taskIds)[x] + Occurrences(r[1..], x);
    }
  }

  // ---------------------------------------------------------------------------
  // moveTask
  // ---------------------------------------------------------------------------

  /** What `moveTask` needs of its caller, and only when both columns exist
      (otherwise it returns the columns unchanged): `fromIndex` is a position
      in the source column, and for a move between two columns the task
      record exists. */
  predicate MoveArgsValid(b: Board, taskId: string, fromColumnId: string, toColumnId: string, fromIndex: nat)
  {
    match (FindColumn(b.columns, fromColumnId), FindColumn(b.columns, toColumnId))
    case (Some(f), Some(_)) =>
      && fromIndex < |b.columns[f].taskIds|
      && (fromColumnId != toColumnId ==> taskId in b.tasks)
    case _ => true
  }

  /** `moveTask`: a reorder inside one column, or a move between two columns
      that also sets the status of `taskId` to the destination's status. The id
      moved is whatever sits at `fromIndex`. */
  function MoveTask(b: Board, taskId: string, fromColumnId: string, toColumnId: string, fromIndex: nat, toIndex: nat): (r: Board)
    requires MoveArgsValid(b, taskId, fromColumnId, toColumnId, fromIndex)
    ensures FindColumn(b.columns, fromColumnId).None? || FindColumn(b.columns, toColumnId).None? ==> r == b
    ensures |r.columns| == |b.columns|
    ensures forall k :: 0 <= k < |b.columns| ==> Shape(r.columns[k]) == Shape(b.columns[k])
    ensures r.tasks.Keys == b.tasks.Keys
    ensures r.selected == b.selected && r.searchQuery == b.searchQuery && r.filterPriority == b.filterPriority
  {
    var from := FindColumn(b.columns, fromColumnId);
    var to := FindColumn(b.columns, toColumnId);
    if from.None? || to.None? then b
    else if fromColumnId == toColumnId then
      var c := b.columns[from.value];
      b.(columns := b.columns[from.value := c.(taskIds := TaskUtils.Reorder(c.taskIds, fromIndex, toIndex))])
    else
      var src := b.columns[from.value];
      var dst := b.columns[to.value];
      var moved := TaskUtils.MoveBetweenColumns(src.taskIds, dst.taskIds, fromIndex, toIndex);
      b.(columns := b.columns[from.value := src.(taskIds := moved.source)][to.value := dst.(taskIds := moved.destination)],
         tasks := b.tasks[taskId := b.tasks[taskId].(status := dst.status)])
  }

  /** A move naming a missing column is accepted with any index and changes
      nothing. */
  lemma MoveToMissingColumn(b: Board, taskId: string, fromColumnId: string, toColumnId: string, fromIndex: nat, toIndex: nat)
    requires FindColumn(b.columns, fromColumnId).None? || FindColumn(b.columns, toColumnId).None?
    ensures MoveArgsValid(b, taskId, fromColumnId, toColumnId, fromIndex)
    ensures MoveTask(b, taskId, fromColumnId, toColumnId, fromIndex, toIndex) == b
  {
  }

  /** A reorder inside one column rewrites only that column's sequence, to
      `reorderTasks` of it, and touches no task. */
  lemma MoveWithinColumn(b: Board, taskId: string, columnId: string, fromIndex: nat, toIndex: nat)
    requires MoveArgsValid(b, taskId, columnId, columnId, fromIndex)
    requires FindColumn(b.columns, columnId).Some?
    ensures var k := FindColumn(b.columns, columnId).value;
            var r := MoveTask(b, taskId, columnId, columnId, fromIndex, toIndex);
            && r.tasks == b.tasks
            && r.columns[k].taskIds == TaskUtils.Reorder(b.columns[k].taskIds, fromIndex, toIndex)
            && forall j :: 0 <= j < |b.columns| && j != k ==> r.columns[j] == b.columns[j]
  {
  }

  /** A move between two columns rewrites exactly those two sequences, to the
      two results of `moveTaskBetweenColumns`, and changes only the status of
      `taskId`, to the destination's. */
  lemma MoveAcrossColumns(b: Board, taskId: string, fromColumnId: string, toColumnId: string, fromIndex: nat, toIndex: nat)
    requires MoveArgsValid(b, taskId, fromColumnId, toColumnId, fromIndex)
    requires fromColumnId != toColumnId
    requires FindColumn(b.columns, fromColumnId).Some? && FindColumn(b.columns, toColumnId).Some?
    ensures var f := FindColumn(b.columns, fromColumnId).value;
            var t := FindColumn(b.columns, toColumnId).value;
            var r := MoveTask(b, taskId, fromColumnId, toColumnId, fromIndex, toIndex);
            var moved := TaskUtils.MoveBetweenColumns(b.columns[f].taskIds, b.columns[t].taskIds, fromIndex, toIndex);
            && r.columns[f].taskIds == moved.source
            && r.columns[t].taskIds == moved.destination
            && (forall j :: 0 <= j < |b.columns| && j != f && j != t ==> r.columns[j] == b.columns[j])
            && r.tasks[taskId] == b.tasks[taskId].(status := b.columns[t].status)
            && (forall x :: x in b.tasks && x != taskId ==> r.tasks[x] == b.tasks[x])
  {
  }

  /** Moving never creates or loses an id: every id occurs across the columns
      as often after the move as before. */
  lemma MoveTaskConservesIds(b: Board, taskId: string, fromColumnId: string, toColumnId: string, fromIndex: nat, toIndex: nat, x: string)
    requires MoveArgsValid(b, taskId, fromColumnId, toColumnId, fromIndex)
    ensures Occurrences(MoveTask(b, taskId, fromColumnId, toColumnId, fromIndex, toIndex).columns, x) == Occurrences(b.columns, x)
  {
    var from := FindColumn(b.columns, fromColumnId);
    var to := FindColumn(b.columns, toColumnId);
    if from.Some? && to.Some? {
      var f := from.value;
      var src := b.columns[f];
      if fromColumnId == toColumnId {
        var c' := src.(taskIds := TaskUtils.Reorder(src.taskIds, fromIndex, toIndex));
        OccurrencesReplace(b.columns, f, c', x);
      } else {
        var t := to.value;
        var dst := b.columns[t];
        var moved := TaskUtils.MoveBetweenColumns(src.taskIds, dst.taskIds, fromIndex, toIndex);
        var cols1 := b.columns[f := src.(taskIds := moved.source)];
        OccurrencesReplace(b.columns, f, src.(taskIds := moved.source), x);
        assert cols1[t] == dst;
        OccurrencesReplace(cols1, t, dst.(taskIds := moved.destination), x);
        assert (multiset(moved.source) + multiset(moved.destination))[x] == (multiset(src.taskIds) + multiset(dst.taskIds))[x];
      }
    }
  }

  // ---------------------------------------------------------------------------
  // addTask, duplicateTask, updateTask
  // ---------------------------------------------------------------------------

  /** Stores `t` under its id and appends the id to every column with its status. */
  function InsertTask(b: Board, t: Task): (r: Board)
    ensures r.tasks.Keys == b.tasks.Keys + {t.id} && r.tasks[t.id] == t
    ensures forall x :: x in b.tasks && x != t.id ==> r.tasks[x] == b.tasks[x]
    ensures |r.columns| == |b.columns|
    ensures forall k :: 0 <= k < |b.columns| ==> Shape(r.columns[k]) == Shape(b.columns[k])
    ensures forall k :: 0 <= k < |b.columns| && b.columns[k].status == t.status ==>
      r.columns[k].taskIds == b.columns[k].taskIds + [t.id]
    ensures forall k :: 0 <= k < |b.columns| && b.columns[k].status != t.status ==>
      r.columns[k] == b.columns[k]
    ensures r.selected == b.selected && r.searchQuery == b.searchQuery && r.filterPriority == b.filterPriority
  {
    b.(tasks := b.tasks[t.id := t], columns := AppendWhere(b.columns, t.status, t.id))
  }

  /** `addTask`: the draft stored under the fresh id `newId` with creation time
      `now`, and `newId` appended to every column whose status is the draft's. */
  function AddTask(b: Board, draft: TaskDraft, newId: string, now: Time): (r: Board)
    ensures r.tasks.Keys == b.tasks.Keys + {newId}
    ensures r.tasks[newId].id == newId && r.tasks[newId].createdAt == now
    ensures r.tasks[newId].(id := "", createdAt := 0) == NewTask(draft, "", 0)
    ensures forall x :: x in b.tasks && x != newId ==> r.tasks[x] == b.tasks[x]
    ensures |r.columns| == |b.columns|
    ensures forall k :: 0 <= k < |b.columns| && b.columns[k].status == draft.status ==>
      r.columns[k].taskIds == b.columns[k].taskIds + [newId]
    ensures forall k :: 0 <= k < |b.columns| ==> Shape(r.columns[k]) == Shape(b.columns[k])
    ensures forall k :: 0 <= k < |b.columns| && b.columns[k].status != draft.status ==>
      r.columns[k] == b.columns[k]
    ensures r.selected == b.selected && r.searchQuery == b.searchQuery && r.filterPriority == b.filterPriority
  {
    InsertTask(b, NewTask(draft, newId, now))
  }

  /** The record `duplicateTask` stores: the original with a new id, the title
      suffixed with " (Copy)" and a new creation time. */
  function CopyOf(t: Task, newId: string, now: Time): (c: Task)
    ensures c.id == newId && c.title == t.title + " (Copy)" && c.createdAt == now
    ensures c.(id := t.id, title := t.title, createdAt := t.createdAt) == t
  {
    t.(id := newId, title := t.title + " (Copy)", createdAt := now)
  }

  /** `duplicateTask`: nothing for an absent id; otherwise the copy stored under
      `newId` and appended to every column with the original's status. */
  function DuplicateTask(b: Board, taskId: string, newId: string, now: Time): (r: Board)
    ensures taskId !in b.tasks ==> r == b
    ensures taskId in b.tasks ==> r == InsertTask(b, CopyOf(b.tasks[taskId], newId, now))
  {
    if taskId !in b.tasks then b
    else InsertTask(b, CopyOf(b.tasks[taskId], newId, now))
  }

  /** `updateTask`: merges the patch into the record; if the patch carries a
      different status, the id leaves the columns with the old status and is
      appended to those with the new one. The source dereferences the record,
      so it must exist. */
  function UpdateTask(b: Board, taskId: string, patch: TaskPatch): (r: Board)
    requires taskId in b.tasks
    ensures r.tasks == b.tasks[taskId := Merge(b.tasks[taskId], patch)]
    ensures patch.status.None? || patch.status.value == b.tasks[taskId].status ==> r.columns == b.columns
    ensures patch.status.Some? && patch.status.value != b.tasks[taskId].status ==>
      r.columns == Relocate(b.columns, taskId, b.tasks[taskId].status, patch.status.value)
    ensures r.selected == b.selected && r.searchQuery == b.searchQuery && r.filterPriority == b.filterPriority
  {
    var current := b.tasks[taskId];
    var tasks' := b.tasks[taskId := Merge(current, patch)];
    if patch.status.Some? && patch.status.value != current.status then
      b.(tasks := tasks', columns := Relocate(b.columns, taskId, current.status, patch.status.value))
    else
      b.(tasks := tasks')
  }

  // ---------------------------------------------------------------------------
  // deleteTask, bulkDeleteTasks
  // ---------------------------------------------------------------------------

  /** `deleteTask`: the record, every occurrence of the id in every column, and
      the id in the selection are removed. */
  function DeleteTask(b: Board, taskId: string): (r: Board)
    ensures r.tasks.Keys == b.tasks.Keys - {taskId}
    ensures forall x :: x in r.tasks ==> r.tasks[x] == b.tasks[x]
    ensures |r.columns| == |b.columns|
    ensures forall k :: 0 <= k < |b.columns| ==> Shape(r.columns[k]) == Shape(b.columns[k])
    ensures forall k :: 0 <= k < |b.columns| ==> taskId !in r.columns[k].taskIds
    ensures forall k :: 0 <= k < |b.columns| ==> IsSubsequence(r.columns[k].taskIds, b.columns[k].taskIds)
    ensures forall k, x :: 0 <= k < |b.columns| && x in r.columns[k].taskIds ==> x in b.columns[k].taskIds
    ensures forall k, x :: 0 <= k < |b.columns| && x != taskId ==>
      multiset(r.columns[k].taskIds)[x] == multiset(b.columns[k].taskIds)[x]
    ensures r.selected == b.selected - {taskId}
    ensures r.searchQuery == b.searchQuery && r.filterPriority == b.filterPriority
  {
    b.(tasks := b.tasks - {taskId}, columns := RemoveEverywhere(b.columns, taskId), selected := b.selected - {taskId})
  }

  /** Deleting twice is deleting once. */
  lemma DeleteTaskIdempotent(b: Board, taskId: string)
    ensures DeleteTask(DeleteTask(b, taskId), taskId) == DeleteTask(b, taskId)
  {
    var once := RemoveEverywhere(b.columns, taskId);
    var twice := RemoveEverywhere(once, taskId);
    forall k | 0 <= k < |once|
      ensures twice[k] == once[k]
    {
      WithoutAbsent(once[k].taskIds, taskId);
    }
    assert twice == once;
    assert DeleteTask(b, taskId).columns == once;
    assert DeleteTask(DeleteTask(b, taskId), taskId).columns == twice;
  }

  /** `bulkDeleteTasks`: every listed id is removed from the task map and from
      every column, absent ids are skipped, and the whole selection is cleared. */
  function BulkDeleteTasks(b: Board, ids: seq<string>): (r: Board)
    ensures r.tasks.Keys == b.tasks.Keys - set x | x in ids
    ensures forall x :: x in r.tasks ==> r.tasks[x] == b.tasks[x]
    ensures |r.columns| == |b.columns|
    ensures forall k :: 0 <= k < |b.columns| ==> Shape(r.columns[k]) == Shape(b.columns[k])
    ensures forall k, x :: 0 <= k < |b.columns| && x in r.columns[k].taskIds ==> x !in ids && x in b.columns[k].taskIds
    ensures forall k :: 0 <= k < |b.columns| ==> IsSubsequence(r.columns[k].taskIds, b.columns[k].taskIds)
    ensures forall k, x :: 0 <= k < |b.columns| && x !in ids ==>
      multiset(r.columns[k].taskIds)[x] == multiset(b.columns[k].taskIds)[x]
    ensures r.selected == {}
    ensures r.searchQuery == b.searchQuery && r.filterPriority == b.filterPriority
  {
    var r := b.(tasks := map x | x in b.tasks && x !in ids :: b.tasks[x],
                columns := RemoveAnyEverywhere(b.columns, ids),
                selected := {});
    forall k, x | 0 <= k < |b.columns| && x !in ids
      ensures multiset(r.columns[k].taskIds)[x] == multiset(b.columns[k].taskIds)[x]
    {
      if x !in b.columns[k].taskIds {
        assert x !in r.columns[k].taskIds;
      }
    }
    r
  }

  /** Deleting the listed ids one at a time with `deleteTask`. */
  function DeleteEach(b: Board, ids: seq<string>): Board
    decreases |ids|
  {
    if |ids| == 0 then b else DeleteEach(DeleteTask(b, ids[0]), ids[1..])
  }

  /** A bulk delete is the one-at-a-time deletion of the listed ids followed by
      clearing the selection. */
  lemma {:induction false} BulkDeleteIsDeleteEach(b: Board, ids: seq<string>)
    ensures BulkDeleteTasks(b, ids) == DeleteEach(b, ids).(selected := {})
    decreases |ids|
  {
    if |ids| == 0 {
      BulkDeleteNothing(b, ids);
    } else {
      BulkDeleteStep(b, ids);
      BulkDeleteIsDeleteEach(DeleteTask(b, ids[0]), ids[1..]);
    }
  }

  /** Bulk-deleting an empty list only clears the selection. */
  lemma BulkDeleteNothing(b: Board, ids: seq<string>)
    requires |ids| == 0
    ensures BulkDeleteTasks(b, ids) == b.(selected := {})
  {
    var r := BulkDeleteTasks(b, ids);
    forall k | 0 <= k < |b.columns|
      ensures r.columns[k] == b.columns[k]
    {
      WithoutAnyNone(b.columns[k].taskIds, ids);
    }
    assert r.columns == b.columns;
    assert r.tasks == b.tasks;
  }

  /** Bulk-deleting `[x] + rest` is deleting `x`, then bulk-deleting `rest`. */
  lemma BulkDeleteStep(b: Board, ids: seq<string>)
    requires |ids| > 0
    ensures BulkDeleteTasks(b, ids) == BulkDeleteTasks(DeleteTask(b, ids[0]), ids[1..])
  {
    BulkDeleteStepColumns(b, ids);
    BulkDeleteStepTasks(b, ids);
  }

  lemma BulkDeleteStepColumns(b: Board, ids: seq<string>)
    requires |ids| > 0
    ensures BulkDeleteTasks(b, ids).columns == BulkDeleteTasks(DeleteTask(b, ids[0]), ids[1..]).columns
  {
    var cols := b.columns;
    var m := RemoveEverywhere(cols, ids[0]);
    var r := RemoveAnyEverywhere(cols, ids);
    var r1 := RemoveAnyEverywhere(m, ids[1..]);
    forall k | 0 <= k < |cols|
      ensures r[k] == r1[k]
    {
      RemoveAnyStepColumn(cols[k], ids);
    }
    assert BulkDeleteTasks(b, ids).columns == r;
    assert DeleteTask(b, ids[0]).columns == m;
  }

  lemma RemoveAnyStepColumn(c: Column, ids: seq<string>)
    requires |ids| > 0
    ensures WithoutAny(c.taskIds, ids) == WithoutAny(Without(c.taskIds, ids[0]), ids[1..])
  {
    assert ids == [ids[0]] + ids[1..];
    WithoutAnyCons(c.taskIds, ids[0], ids[1..]);
  }

  lemma BulkDeleteStepTasks(b: Board, ids: seq<string>)
    requires |ids| > 0
    ensures BulkDeleteTasks(b, ids).tasks == BulkDeleteTasks(DeleteTask(b, ids[0]), ids[1..]).tasks
  {
    var r := BulkDeleteTasks(b, ids).tasks;
    var r1 := BulkDeleteTasks(DeleteTask(b, ids[0]), ids[1..]).tasks;
    assert forall x :: x in ids <==> x == ids[0] || x in ids[1..];
    assert r.Keys == r1.Keys;
  }

  /** Removing an empty list of ids keeps the sequence. */
  lemma {:induction false} WithoutAnyNone(s: seq<string>, ids: seq<string>)
    requires |ids| == 0
    ensures WithoutAny(s, ids) == s
  {
    if |s| > 0 {
      WithoutAnyNone(s[1..], ids);
      assert s == [s[0]] + s[1..];
    }
  }

  /** Repeating a bulk delete changes nothing more. */
  lemma BulkDeleteIdempotent(b: Board, ids: seq<string>)
    ensures BulkDeleteTasks(BulkDeleteTasks(b, ids), ids) == BulkDeleteTasks(b, ids)
  {
    var once := BulkDeleteTasks(b, ids);
    forall k | 0 <= k < |once.columns|
      ensures WithoutAny(once.columns[k].taskIds, ids) == once.columns[k].taskIds
    {
      WithoutAnyDisjoint(once.columns[k].taskIds, ids);
    }
  }

  /** Removing ids that do not occur keeps the sequence. */
  lemma {:induction false} WithoutAnyDisjoint(s: seq<string>, ids: seq<string>)
    requires forall x :: x in s ==> x !in ids
    ensures WithoutAny(s, ids) == s
  {
    if |s| > 0 {
      WithoutAnyDisjoint(s[1..], ids);
      assert s == [s[0]] + s[1..];
    }
  }

  // ---------------------------------------------------------------------------
  // Selection
  // ---------------------------------------------------------------------------

  /** `toggleTaskSelection`: flips the membership of one id and nothing else. */
  function ToggleTaskSelection(b: Board, taskId: string): (r: Board)
    ensures taskId in r.selected <==> taskId !in b.selected
    ensures forall x :: x != taskId ==> (x in r.selected <==> x in b.selected)
    ensures r.(selected := b.selected) == b
  {
    if taskId in b.selected then b.(selected := b.selected - {taskId})
    else b.(selected := b.selected + {taskId})
  }

  /** Toggling the same id twice restores the selection. */
  lemma ToggleTwice(b: Board, taskId: string)
    ensures ToggleTaskSelection(ToggleTaskSelection(b, taskId), taskId) == b
  {
  }

  /** `selectAllTasks`: the selection becomes every key of the task map,
      whatever the query and the priority filter hide. */
  function SelectAllTasks(b: Board): (r: Board)
    ensures forall x :: x in r.selected <==> x in b.tasks
    ensures r.(selected := b.selected) == b
  {
    b.(selected := b.tasks.Keys)
  }

  /** `clearSelection`. */
  function ClearSelection(b: Board): (r: Board)
    ensures forall x :: x !in r.selected
    ensures r.(selected := b.selected) == b
  {
    b.(selected := {})
  }

  /** Selecting all and then deleting one task leaves every other task selected. */
  lemma SelectAllThenDelete(b: Board, taskId: string)
    ensures DeleteTask(SelectAllTasks(b), taskId).selected == DeleteTask(b, taskId).tasks.Keys
  {
  }

  // ---------------------------------------------------------------------------
  // Filtering
  // ---------------------------------------------------------------------------

  /** `text?.toLowerCase().includes(query.toLowerCase())`, false for an absent field. */
  predicate FieldMatches(field: Option<string>, query: string)
  {
    field.Some? && Contains(ToLower(field.value), ToLower(query))
  }

  /** The search half of `getFilteredTasks`: an empty query keeps everything;
      otherwise the title, the description or the assignee must contain it,
      ignoring case. */
  predicate MatchesQuery(t: Task, query: string)
  {
    |query| == 0 || FieldMatches(Some(t.title), query) || FieldMatches(t.description, query) || FieldMatches(t.assignee, query)
  }

  /** The priority half: `'all'` keeps everything, otherwise the priority must
      be present and equal. */
  predicate MatchesPriority(t: Task, f: PriorityFilter)
  {
    f.AllPriorities? || t.priority == Some(f.priority)
  }

  /** `getFilteredTasks`: the sub-map of the tasks passing both tests, with the
      records unchanged. */
  function FilteredTasks(b: Board): (r: map<string, Task>)
    ensures forall x :: x in r ==> x in b.tasks && r[x] == b.tasks[x]
    ensures forall x :: x in b.tasks ==>
      (x in r <==> MatchesQuery(b.tasks[x], b.searchQuery) && MatchesPriority(b.tasks[x], b.filterPriority))
  {
    map x | x in b.tasks && MatchesQuery(b.tasks[x], b.searchQuery) && MatchesPriority(b.tasks[x], b.filterPriority) :: b.tasks[x]
  }

  /** A non-empty query keeps a task exactly when one of its three fields holds
      the lower-cased query as a contiguous slice of its lower-cased text. */
  lemma QueryIsCaseInsensitiveSubstring(t: Task, query: string)
    requires |query| > 0
    ensures MatchesQuery(t, query) <==>
      (exists i: nat :: OccursAt(ToLower(t.title), ToLower(query), i))
      || (t.description.Some? && exists i: nat :: OccursAt(ToLower(t.description.value), ToLower(query), i))
      || (t.assignee.Some? && exists i: nat :: OccursAt(ToLower(t.assignee.value), ToLower(query), i))
  {
    ContainsIsSubstring(ToLower(t.title), ToLower(query));
    if t.description.Some? {
      ContainsIsSubstring(ToLower(t.description.value), ToLower(query));
    }
    if t.assignee.Some? {
      ContainsIsSubstring(ToLower(t.assignee.value), ToLower(query));
    }
  }

  /** With no query and the `'all'` filter, every task is shown; with no query
      and one priority, exactly the tasks of that priority are. */
  lemma FilterWithoutQuery(b: Board)
    requires |b.searchQuery| == 0
    ensures b.filterPriority.AllPriorities? ==> FilteredTasks(b) == b.tasks
    ensures b.filterPriority.OnlyPriority? ==>
      forall x :: x in FilteredTasks(b) <==> x in b.tasks && b.tasks[x].priority == Some(b.filterPriority.priority)
  {
  }

  /** Choosing a priority only ever hides tasks that `'all'` would show. */
  lemma PriorityFilterNarrows(b: Board)
    ensures FilteredTasks(b).Keys <= FilteredTasks(b.(filterPriority := AllPriorities)).Keys
  {
  }

  /** `setSearchQuery`. */
  function SetSearchQuery(b: Board, query: string): (r: Board)
    ensures r.(searchQuery := b.searchQuery) == b && r.searchQuery == query
  {
    b.(searchQuery := query)
  }

  /** `setFilterPriority`. */
  function SetFilterPriority(b: Board, f: PriorityFilter): (r: Board)
    ensures r.(filterPriority := b.filterPriority) == b && r.filterPriority == f
  {
    b.(filterPriority := f)
  }
}

=== FILE: board_invariant.dfy ===
/** The consistency the board is meant to keep between tasks and columns:
    every id in a column names a task whose status is that column's status,
    every task sits exactly once across the columns, and every record is
    stored under its own id. Which operations keep it, and where it breaks. */
module BoardInvariant {
  import opened KanbanTypes
  import opened Sequences
  import opened BoardEngine
  import TaskUtils

  /** Every id in the column names a task with the column's status. */
  predicate ColumnAgrees(c: Column, tasks: map<string, Task>)
  {
    forall x :: x in c.taskIds ==> x in tasks && tasks[x].status == c.status
  }

  /** Every id in a column names a task with that column's status. */
  predicate StatusAgrees(b: Board)
  {
    forall k :: 0 <= k < |b.columns| ==> ColumnAgrees(b.columns[k], b.tasks)
  }

  /** Every record is stored under its own id. */
  predicate KeysMatchIds(b: Board)
  {
    forall x :: x in b.tasks ==> b.tasks[x].id == x
  }

  /** Every task id occurs exactly once across all columns, and no other id occurs. */
  ghost predicate PlacedOnce(b: Board)
  {
    forall x :: Occurrences(b.columns, x) == (if x in b.tasks then 1 else 0)
  }

  ghost predicate WellFormed(b: Board)
  {
    StatusAgrees(b) && KeysMatchIds(b) && PlacedOnce(b)
  }

  // ---------------------------------------------------------------------------
  // moveTask
  // ---------------------------------------------------------------------------

  /** A move whose `fromIndex` really points at `taskId` keeps the board consistent. */
  lemma MoveTaskPreservesWellFormed(b: Board, taskId: string, fromColumnId: string, toColumnId: string, fromIndex: nat, toIndex: nat)
    requires WellFormed(b)
    requires MoveArgsValid(b, taskId, fromColumnId, toColumnId, fromIndex)
    requires FindColumn(b.columns, fromColumnId).Some? && FindColumn(b.columns, toColumnId).Some? ==>
      b.columns[FindColumn(b.columns, fromColumnId).value].taskIds[fromIndex] == taskId
    ensures WellFormed(MoveTask(b, taskId, fromColumnId, toColumnId, fromIndex, toIndex))
  {
    if FindColumn(b.columns, fromColumnId).None? || FindColumn(b.columns, toColumnId).None? {
      return;
    }
    MoveKeepsPlacement(b, taskId, fromColumnId, toColumnId, fromIndex, toIndex);
    if fromColumnId == toColumnId {
      MoveWithinKeepsAgreement(b, taskId, fromColumnId, fromIndex, toIndex);
    } else {
      MoveAcrossKeepsAgreement(b, taskId, fromColumnId, toColumnId, fromIndex, toIndex);
    }
  }

  lemma MoveKeepsPlacement(b: Board, taskId: string, fromColumnId: string, toColumnId: string, fromIndex: nat, toIndex: nat)
    requires KeysMatchIds(b) && PlacedOnce(b)
    requires MoveArgsValid(b, taskId, fromColumnId, toColumnId, fromIndex)
    requires FindColumn(b.columns, fromColumnId).Some? && FindColumn(b.columns, toColumnId).Some?
    ensures var r := MoveTask(b, taskId, fromColumnId, toColumnId, fromIndex, toIndex);
            KeysMatchIds(r) && PlacedOnce(r)
  {
    var r := MoveTask(b, taskId, fromColumnId, toColumnId, fromIndex, toIndex);
    forall x
      ensures Occurrences(r.columns, x) == (if x in r.tasks then 1 else 0)
    {
      MoveTaskConservesIds(b, taskId, fromColumnId, toColumnId, fromIndex, toIndex, x);
    }
    if fromColumnId == toColumnId {
      MoveWithinColumn(b, taskId, fromColumnId, fromIndex, toIndex);
    } else {
      MoveAcrossColumns(b, taskId, fromColumnId, toColumnId, fromIndex, toIndex);
    }
  }

  lemma MoveWithinKeepsAgreement(b: Board, taskId: string, columnId: string, fromIndex: nat, toIndex: nat)
    requires StatusAgrees(b)
    requires MoveArgsValid(b, taskId, columnId, columnId, fromIndex)
    requires FindColumn(b.columns, columnId).Some?
    ensures StatusAgrees(MoveTask(b, taskId, columnId, columnId, fromIndex, toIndex))
  {
    var r := MoveTask(b, taskId, columnId, columnId, fromIndex, toIndex);
    var f := FindColumn(b.columns, columnId).value;
    MoveWithinColumn(b, taskId, columnId, fromIndex, toIndex);
    forall k | 0 <= k < |r.columns|
      ensures ColumnAgrees(r.columns[k], r.tasks)
    {
      assert ColumnAgrees(b.columns[k], b.tasks);
      if k == f {
        forall x | x in r.columns[k].taskIds
          ensures x in r.tasks && r.tasks[x].status == r.columns[k].status
        {
          assert multiset(r.columns[k].taskIds)[x] == multiset(b.columns[k].taskIds)[x];
        }
      } else {
        assert r.columns[k] == b.columns[k];
      }
    }
  }

  lemma MoveAcrossKeepsAgreement(b: Board, taskId: string, fromColumnId: string, toColumnId: string, fromIndex: nat, toIndex: nat)
    requires StatusAgrees(b) && PlacedOnce(b)
    requires MoveArgsValid(b, taskId, fromColumnId, toColumnId, fromIndex)
    requires fromColumnId != toColumnId
    requires FindColumn(b.columns, fromColumnId).Some? && FindColumn(b.columns, toColumnId).Some?
    requires b.columns[FindColumn(b.columns, fromColumnId).value].taskIds[fromIndex] == taskId
    ensures StatusAgrees(MoveTask(b, taskId, fromColumnId, toColumnId, fromIndex, toIndex))
  {
    var r := MoveTask(b, taskId, fromColumnId, toColumnId, fromIndex, toIndex);
    var f := FindColumn(b.columns, fromColumnId).value;
    var t := FindColumn(b.columns, toColumnId).value;
    var src := b.columns[f].taskIds;
    var dst := b.columns[t].taskIds;
    MoveAcrossColumns(b, taskId, fromColumnId, toColumnId, fromIndex, toIndex);
    var moved := TaskUtils.MoveBetweenColumns(src, dst, fromIndex, toIndex);
    assert taskId in b.tasks;
    OccurrencesOfColumns(b.columns, f, f, taskId);
    assert taskId in src;
    assert multiset(src)[taskId] == 1;
    assert (multiset(moved.source) + multiset{src[fromIndex]})[taskId] == multiset(src)[taskId];
    assert multiset(moved.source)[taskId] == 0;
    forall k | 0 <= k < |r.columns|
      ensures ColumnAgrees(r.columns[k], r.tasks)
    {
      assert ColumnAgrees(b.columns[k], b.tasks);
      if k == f {
        forall x | x in r.columns[k].taskIds
          ensures x in r.tasks && r.tasks[x].status == r.columns[k].status
        {
          assert x != taskId;
          assert (multiset(moved.source) + multiset{src[fromIndex]})[x] == multiset(src)[x];
          assert x in src;
        }
      } else if k == t {
        forall x | x in r.columns[k].taskIds
          ensures x in r.tasks && r.tasks[x].status == r.columns[k].status
        {
          if x != taskId {
            assert (multiset(moved.source) + multiset{src[fromIndex]})[x] == multiset(src)[x];
            assert (multiset(moved.source) + multiset(moved.destination))[x] == (multiset(src) + multiset(dst))[x];
            assert x in dst;
          }
        }
      } else {
        assert r.columns[k] == b.columns[k];
        if taskId in b.columns[k].taskIds {
          OccurrencesOfColumns(b.columns, k, f, taskId);
        }
      }
    }
  }

  /** Where the invariant breaks: when `fromIndex` points at some other id and
      the two columns differ in status, the other id lands in the destination
      still carrying the source's status (and `taskId` is relabelled). */
  lemma StaleIndexBreaksAgreement(b: Board, taskId: string, fromColumnId: string, toColumnId: string, fromIndex: nat, toIndex: nat)
    requires WellFormed(b)
    requires MoveArgsValid(b, taskId, fromColumnId, toColumnId, fromIndex)
    requires fromColumnId != toColumnId
    requires FindColumn(b.columns, fromColumnId).Some? && FindColumn(b.columns, toColumnId).Some?
    requires b.columns[FindColumn(b.columns, fromColumnId).value].taskIds[fromIndex] != taskId
    requires b.columns[FindColumn(b.columns, fromColumnId).value].status
          != b.columns[FindColumn(b.columns, toColumnId).value].status
    ensures !StatusAgrees(MoveTask(b, taskId, fromColumnId, toColumnId, fromIndex, toIndex))
  {
    var f := FindColumn(b.columns, fromColumnId).value;
    var t := FindColumn(b.columns, toColumnId).value;
    var r := MoveTask(b, taskId, fromColumnId, toColumnId, fromIndex, toIndex);
    var src := b.columns[f].taskIds;
    var dst := b.columns[t].taskIds;
    var y := src[fromIndex];
    MoveAcrossColumns(b, taskId, fromColumnId, toColumnId, fromIndex, toIndex);
    var moved := TaskUtils.MoveBetweenColumns(src, dst, fromIndex, toIndex);
    assert moved.destination[Clamp(toIndex, |dst|)] == y;
    assert y in r.columns[t].taskIds;
    assert y in b.columns[f].taskIds;
    assert r.tasks[y].status == b.columns[f].status;
  }

  // ---------------------------------------------------------------------------
  // addTask, duplicateTask, updateTask
  // ---------------------------------------------------------------------------

  /** Storing a task under a fresh id keeps the board consistent exactly when
      one column carries its status: with none the task is orphaned, with two
      or more its id is placed twice. */
  lemma InsertTaskWellFormed(b: Board, t: Task)
    requires WellFormed(b)
    requires t.id !in b.tasks
    ensures WellFormed(InsertTask(b, t)) <==> NumWithStatus(b.columns, t.status) == 1
  {
    OccurrencesAppendWhere(b.columns, t.status, t.id, t.id);
    if NumWithStatus(b.columns, t.status) == 1 {
      InsertKeepsPlacement(b, t);
      InsertKeepsAgreement(b, t);
    }
  }

  lemma InsertKeepsPlacement(b: Board, t: Task)
    requires PlacedOnce(b) && KeysMatchIds(b)
    requires t.id !in b.tasks
    requires NumWithStatus(b.columns, t.status) == 1
    ensures PlacedOnce(InsertTask(b, t)) && KeysMatchIds(InsertTask(b, t))
  {
    var r := InsertTask(b, t);
    forall x
      ensures Occurrences(r.columns, x) == (if x in r.tasks then 1 else 0)
    {
      OccurrencesAppendWhere(b.columns, t.status, t.id, x);
    }
  }

  lemma InsertKeepsAgreement(b: Board, t: Task)
    requires StatusAgrees(b)
    requires t.id !in b.tasks
    ensures StatusAgrees(InsertTask(b, t))
  {
    var r := InsertTask(b, t);
    forall k | 0 <= k < |r.columns|
      ensures ColumnAgrees(r.columns[k], r.tasks)
    {
      assert ColumnAgrees(b.columns[k], b.tasks);
      forall x | x in r.columns[k].taskIds
        ensures x in r.tasks && r.tasks[x].status == r.columns[k].status
      {
        if x != t.id {
          assert x in b.columns[k].taskIds;
        }
      }
    }
  }

  /** `addTask` with a fresh id keeps the board consistent exactly when one
      column carries the draft's status. */
  lemma AddTaskWellFormed(b: Board, draft: TaskDraft, newId: string, now: Time)
    requires WellFormed(b)
    requires newId !in b.tasks
    ensures WellFormed(AddTask(b, draft, newId, now)) <==> NumWithStatus(b.columns, draft.status) == 1
  {
    InsertTaskWellFormed(b, NewTask(draft, newId, now));
  }

  /** With no column for the draft's status, `addTask` stores a task that no
      column shows. */
  lemma AddTaskOrphans(b: Board, draft: TaskDraft, newId: string, now: Time)
    requires WellFormed(b)
    requires newId !in b.tasks
    requires NumWithStatus(b.columns, draft.status) == 0
    ensures var r := AddTask(b, draft, newId, now);
            newId in r.tasks && forall k :: 0 <= k < |r.columns| ==> newId !in r.columns[k].taskIds
  {
    var r := AddTask(b, draft, newId, now);
    OccurrencesAppendWhere(b.columns, draft.status, newId, newId);
    forall k | 0 <= k < |r.columns|
      ensures newId !in r.columns[k].taskIds
    {
      OccurrencesOfColumns(r.columns, k, k, newId);
    }
  }

  /** `duplicateTask` of an existing task under a fresh id keeps the board
      consistent exactly when one column carries the original's status. */
  lemma DuplicateTaskWellFormed(b: Board, taskId: string, newId: string, now: Time)
    requires WellFormed(b)
    requires taskId in b.tasks && newId !in b.tasks
    ensures WellFormed(DuplicateTask(b, taskId, newId, now)) <==> NumWithStatus(b.columns, b.tasks[taskId].status) == 1
  {
    InsertTaskWellFormed(b, CopyOf(b.tasks[taskId], newId, now));
  }

  /** `updateTask` keeps the board consistent exactly when the status is kept
      or exactly one column carries the new status. */
  lemma UpdateTaskWellFormed(b: Board, taskId: string, patch: TaskPatch)
    requires WellFormed(b)
    requires taskId in b.tasks
    ensures WellFormed(UpdateTask(b, taskId, patch)) <==>
      (patch.status.None? || patch.status.value == b.tasks[taskId].status || NumWithStatus(b.columns, patch.status.value) == 1)
  {
    var before := b.tasks[taskId].status;
    if patch.status.Some? && patch.status.value != before {
      var after := patch.status.value;
      UpdateRelocates(b, taskId, patch);
      if NumWithStatus(b.columns, after) == 1 {
        UpdateKeepsPlacement(b, taskId, patch);
      }
    } else {
      UpdateInPlace(b, taskId, patch);
    }
  }

  /** Without a status change, an update keeps the board consistent. */
  lemma UpdateInPlace(b: Board, taskId: string, patch: TaskPatch)
    requires WellFormed(b)
    requires taskId in b.tasks
    requires patch.status.None? || patch.status.value == b.tasks[taskId].status
    ensures WellFormed(UpdateTask(b, taskId, patch))
  {
    var r := UpdateTask(b, taskId, patch);
    forall k | 0 <= k < |r.columns|
      ensures ColumnAgrees(r.columns[k], r.tasks)
    {
      assert ColumnAgrees(b.columns[k], b.tasks);
    }
  }

  /** With a status change, the updated id sits only in columns of the new
      status, every other id keeps its agreement, and the id occurs once per
      column of the new status. */
  lemma UpdateRelocates(b: Board, taskId: string, patch: TaskPatch)
    requires StatusAgrees(b) && KeysMatchIds(b)
    requires taskId in b.tasks
    requires patch.status.Some? && patch.status.value != b.tasks[taskId].status
    ensures var r := UpdateTask(b, taskId, patch);
            StatusAgrees(r) && KeysMatchIds(r)
            && Occurrences(r.columns, taskId) == NumWithStatus(b.columns, patch.status.value)
  {
    var r := UpdateTask(b, taskId, patch);
    var before := b.tasks[taskId].status;
    var after := patch.status.value;
    forall k | 0 <= k < |b.columns| && taskId in b.columns[k].taskIds
      ensures b.columns[k].status == before
    {
      assert ColumnAgrees(b.columns[k], b.tasks);
    }
    OccurrencesRelocate(b.columns, taskId, before, after, taskId);
    forall k | 0 <= k < |r.columns|
      ensures ColumnAgrees(r.columns[k], r.tasks)
    {
      assert ColumnAgrees(b.columns[k], b.tasks);
      forall x | x in r.columns[k].taskIds
        ensures x in r.tasks && r.tasks[x].status == r.columns[k].status
      {
        if x != taskId {
          assert x in b.columns[k].taskIds;
        }
      }
    }
  }

  /** A status change towards a status exactly one column carries keeps every
      task placed exactly once. */
  lemma UpdateKeepsPlacement(b: Board, taskId: string, patch: TaskPatch)
    requires StatusAgrees(b) && PlacedOnce(b)
    requires taskId in b.tasks
    requires patch.status.Some? && patch.status.value != b.tasks[taskId].status
    requires NumWithStatus(b.columns, patch.status.value) == 1
    ensures PlacedOnce(UpdateTask(b, taskId, patch))
  {
    var r := UpdateTask(b, taskId, patch);
    var before := b.tasks[taskId].status;
    var after := patch.status.value;
    forall k | 0 <= k < |b.columns| && taskId in b.columns[k].taskIds
      ensures b.columns[k].status == before
    {
      assert ColumnAgrees(b.columns[k], b.tasks);
    }
    forall x
      ensures Occurrences(r.columns, x) == (if x in r.tasks then 1 else 0)
    {
      OccurrencesRelocate(b.columns, taskId, before, after, x);
    }
  }

  // ---------------------------------------------------------------------------
  // deleteTask, bulkDeleteTasks
  // ---------------------------------------------------------------------------

  lemma DeleteTaskPreservesWellFormed(b: Board, taskId: string)
    requires WellFormed(b)
    ensures WellFormed(DeleteTask(b, taskId))
  {
    DeleteTaskPlacedOnce(b, taskId);
    DeleteTaskStatusAgrees(b, taskId);
  }

  lemma DeleteTaskPlacedOnce(b: Board, taskId: string)
    requires PlacedOnce(b)
    ensures PlacedOnce(DeleteTask(b, taskId))
  {
    var r := DeleteTask(b, taskId);
    forall x
      ensures Occurrences(r.columns, x) == (if x in r.tasks then 1 else 0)
    {
      OccurrencesRemoveEverywhere(b.columns, taskId, x);
    }
  }

  /** Agreement survives dropping ids from columns and records from the map,
      as long as every id left in a column keeps its record. */
  lemma ShrinkKeepsAgreement(b: Board, r: Board)
    requires StatusAgrees(b)
    requires |r.columns| == |b.columns|
    requires forall k :: 0 <= k < |b.columns| ==> r.columns[k].status == b.columns[k].status
    requires forall x :: x in r.tasks ==> x in b.tasks && r.tasks[x] == b.tasks[x]
    requires forall k, x :: 0 <= k < |b.columns| && x in r.columns[k].taskIds ==>
      x in b.columns[k].taskIds && x in r.tasks
    ensures StatusAgrees(r)
  {
    forall k | 0 <= k < |r.columns|
      ensures ColumnAgrees(r.columns[k], r.tasks)
    {
      assert ColumnAgrees(b.columns[k], b.tasks);
    }
  }

  lemma DeleteTaskStatusAgrees(b: Board, taskId: string)
    requires StatusAgrees(b)
    ensures StatusAgrees(DeleteTask(b, taskId))
  {
    var r := DeleteTask(b, taskId);
    assert forall k :: 0 <= k < |b.columns| ==> Shape(r.columns[k]).status == Shape(b.columns[k]).status;
    ShrinkKeepsAgreement(b, r);
  }

  lemma BulkDeletePreservesWellFormed(b: Board, ids: seq<string>)
    requires WellFormed(b)
    ensures WellFormed(BulkDeleteTasks(b, ids))
  {
    BulkDeletePlacedOnce(b, ids);
    var r := BulkDeleteTasks(b, ids);
    assert forall k :: 0 <= k < |b.columns| ==> Shape(r.columns[k]).status == Shape(b.columns[k]).status;
    ShrinkKeepsAgreement(b, r);
  }

  lemma BulkDeletePlacedOnce(b: Board, ids: seq<string>)
    requires PlacedOnce(b)
    ensures PlacedOnce(BulkDeleteTasks(b, ids))
  {
    var r := BulkDeleteTasks(b, ids);
    forall x
      ensures Occurrences(r.columns, x) == (if x in r.tasks then 1 else 0)
    {
      OccurrencesRemoveAny(b.columns, ids, x);
    }
  }
}

=== FILE: board_view.dfy ===
/** The glue in the board component: the drop handler that turns a finished
    drag into a `moveTask`, the per-column projection of the filtered tasks,
    and the toolbar's "Delete All" over the selection. */
module BoardView {
  import opened KanbanTypes
  import opened Sequences
  import opened BoardEngine
  import opened BoardInvariant
  import opened DragAndDrop
  import TaskUtils
  import ColumnUtils

  /** JavaScript truthiness of a `string | null`: present and not empty. */
  predicate Truthy(s: Option<string>)
  {
    s.Some? && |s.value| > 0
  }

  /** Every id listed in a column has a task record. */
  predicate IdsKnown(b: Board)
  {
    forall k :: 0 <= k < |b.columns| ==> forall x :: x in b.columns[k].taskIds ==> x in b.tasks
  }

  /** A consistent board lists only known ids. */
  lemma WellFormedIdsKnown(b: Board)
    requires WellFormed(b)
    ensures IdsKnown(b)
  {
    forall k | 0 <= k < |b.columns|
      ensures forall x :: x in b.columns[k].taskIds ==> x in b.tasks
    {
      assert ColumnAgrees(b.columns[k], b.tasks);
    }
  }

  // ---------------------------------------------------------------------------
  // handleDrop
  // ---------------------------------------------------------------------------

  /** The drop goes through: a task and a source column are being dragged, both
      columns exist, and the task is still listed in the source column. */
  predicate DropApplies(b: Board, d: DragState, toColumnId: string)
  {
    && Truthy(d.draggedTaskId) && Truthy(d.draggedFromColumn)
    && FindColumn(b.columns, d.draggedFromColumn.value).Some?
    && FindColumn(b.columns, toColumnId).Some?
    && d.draggedTaskId.value in b.columns[FindColumn(b.columns, d.draggedFromColumn.value).value].taskIds
  }

  /** The board and the drag state after a drop. */
  datatype Dropped = Dropped(board: Board, drag: DragState)

  /** `handleDrop`: when the drop applies, move the dragged id from where it
      currently sits in its source column to `toIndex` of the target, and end
      the drag; otherwise change nothing. */
  function HandleDrop(b: Board, d: DragState, toColumnId: string, toIndex: nat): (r: Dropped)
    requires IdsKnown(b)
    ensures !DropApplies(b, d, toColumnId) ==> r == Dropped(b, d)
    ensures DropApplies(b, d, toColumnId) ==> r.drag == Idle
    ensures DropApplies(b, d, toColumnId) ==>
      var f := FindColumn(b.columns, d.draggedFromColumn.value).value;
      var i := IndexOf(b.columns[f].taskIds, d.draggedTaskId.value);
      i >= 0 && b.columns[f].taskIds[i] == d.draggedTaskId.value
      && r.board == MoveTask(b, d.draggedTaskId.value, d.draggedFromColumn.value, toColumnId, i, toIndex)
  {
    if !Truthy(d.draggedTaskId) || !Truthy(d.draggedFromColumn) then Dropped(b, d)
    else
      var taskId := d.draggedTaskId.value;
      var fromColumnId := d.draggedFromColumn.value;
      var from := FindColumn(b.columns, fromColumnId);
      var to := FindColumn(b.columns, toColumnId);
      if from.None? || to.None? then Dropped(b, d)
      else
        var i := IndexOf(b.columns[from.value].taskIds, taskId);
        if i == -1 then Dropped(b, d)
        else
          assert taskId in b.columns[from.value].taskIds;
          Dropped(MoveTask(b, taskId, fromColumnId, toColumnId, i, toIndex), DragEnd(d))
  }

  /** A drop while nothing is dragged does nothing. */
  lemma DropWhileIdle(b: Board, toColumnId: string, toIndex: nat)
    requires IdsKnown(b)
    ensures HandleDrop(b, Idle, toColumnId, toIndex) == Dropped(b, Idle)
  {
  }

  /** Because the handler looks the index up itself, a drop keeps a consistent
      board consistent, and the dragged task ends up in the target column with
      the target's status. */
  lemma HandleDropPreservesWellFormed(b: Board, d: DragState, toColumnId: string, toIndex: nat)
    requires WellFormed(b)
    ensures IdsKnown(b)
    ensures WellFormed(HandleDrop(b, d, toColumnId, toIndex).board)
    ensures DropApplies(b, d, toColumnId) ==>
      var r := HandleDrop(b, d, toColumnId, toIndex).board;
      var t := FindColumn(b.columns, toColumnId).value;
      var id := d.draggedTaskId.value;
      id in r.columns[t].taskIds && id in r.tasks && r.tasks[id].status == b.columns[t].status
  {
    WellFormedIdsKnown(b);
    if DropApplies(b, d, toColumnId) {
      var id := d.draggedTaskId.value;
      var fromColumnId := d.draggedFromColumn.value;
      var f := FindColumn(b.columns, fromColumnId).value;
      var t := FindColumn(b.columns, toColumnId).value;
      var src := b.columns[f].taskIds;
      var i := IndexOf(src, id);
      var r := MoveTask(b, id, fromColumnId, toColumnId, i, toIndex);
      MoveTaskPreservesWellFormed(b, id, fromColumnId, toColumnId, i, toIndex);
      if fromColumnId == toColumnId {
        MoveWithinColumn(b, id, fromColumnId, i, toIndex);
        assert multiset(r.columns[f].taskIds)[id] == multiset(src)[id];
        assert ColumnAgrees(b.columns[f], b.tasks);
      } else {
        MoveAcrossColumns(b, id, fromColumnId, toColumnId, i, toIndex);
        var moved := TaskUtils.MoveBetweenColumns(src, b.columns[t].taskIds, i, toIndex);
        assert moved.destination[Clamp(toIndex, |b.columns[t].taskIds|)] == id;
      }
    }
  }

  // ---------------------------------------------------------------------------
  // Per-column projection
  // ---------------------------------------------------------------------------

  /** `column.taskIds.map(id => filteredTasks[id]).filter(Boolean)`: the column's
      tasks that pass the search and the priority filter, in column order. */
  function ColumnTasks(b: Board, c: Column): (r: seq<Task>)
    ensures |r| <= |c.taskIds|
    ensures forall t :: t in r ==> t in b.tasks.Values
    ensures forall t :: t in r ==> MatchesQuery(t, b.searchQuery) && MatchesPriority(t, b.filterPriority)
  {
    var shown := FilteredTasks(b);
    var r := ColumnUtils.Present(c.taskIds, shown);
    assert forall t :: t in r ==> t in shown.Values;
    assert forall t :: t in shown.Values ==> exists x :: x in shown && shown[x] == t;
    r
  }

  /** An independent reading of what a column shows: walking its ids in order,
      the record of every id that has one passing both the search and the
      priority filter. */
  function Shown(b: Board, ids: seq<string>): seq<Task>
  {
    if |ids| == 0 then []
    else if ids[0] in b.tasks && MatchesQuery(b.tasks[ids[0]], b.searchQuery) && MatchesPriority(b.tasks[ids[0]], b.filterPriority)
    then [b.tasks[ids[0]]] + Shown(b, ids[1..])
    else Shown(b, ids[1..])
  }

  lemma {:induction false} PresentFilteredIsShown(b: Board, ids: seq<string>)
    ensures ColumnUtils.Present(ids, FilteredTasks(b)) == Shown(b, ids)
  {
    if |ids| > 0 {
      PresentFilteredIsShown(b, ids[1..]);
    }
  }

  /** A column shows exactly the records of its listed ids that pass both
      filters, in column order. */
  lemma ColumnTasksIsShown(b: Board, c: Column)
    ensures ColumnTasks(b, c) == Shown(b, c.taskIds)
  {
    PresentFilteredIsShown(b, c.taskIds);
  }

  lemma {:induction false} ShownComplete(b: Board, ids: seq<string>, x: string)
    requires x in ids && x in b.tasks
    requires MatchesQuery(b.tasks[x], b.searchQuery) && MatchesPriority(b.tasks[x], b.filterPriority)
    ensures b.tasks[x] in Shown(b, ids)
  {
    if ids[0] != x {
      ShownComplete(b, ids[1..], x);
    }
  }

  /** The converse of `ColumnTasks`'s contract: every listed id whose record
      passes both filters has that record shown. */
  lemma ColumnTasksComplete(b: Board, c: Column, x: string)
    requires x in c.taskIds && x in b.tasks
    requires MatchesQuery(b.tasks[x], b.searchQuery) && MatchesPriority(b.tasks[x], b.filterPriority)
    ensures b.tasks[x] in ColumnTasks(b, c)
  {
    ColumnTasksIsShown(b, c);
    ShownComplete(b, c.taskIds, x);
  }

  /** With no query and the `'all'` filter, a column of known ids shows the
      record of every id it lists, in order. */
  lemma ColumnTasksUnfiltered(b: Board, k: nat)
    requires IdsKnown(b)
    requires k < |b.columns|
    requires |b.searchQuery| == 0 && b.filterPriority.AllPriorities?
    ensures var ids := b.columns[k].taskIds;
            var r := ColumnTasks(b, b.columns[k]);
            |r| == |ids| && forall i :: 0 <= i < |ids| ==> r[i] == b.tasks[ids[i]]
  {
    FilterWithoutQuery(b);
  }

  /** Splitting a column's list splits what it shows, so the projection keeps
      the relative order of the ids. */
  lemma ColumnTasksSplit(b: Board, c: Column, n: nat)
    requires n <= |c.taskIds|
    ensures ColumnTasks(b, c) == ColumnTasks(b, c.(taskIds := c.taskIds[..n])) + ColumnTasks(b, c.(taskIds := c.taskIds[n..]))
  {
    assert c.taskIds == c.taskIds[..n] + c.taskIds[n..];
    ColumnUtils.PresentAppend(c.taskIds[..n], c.taskIds[n..], FilteredTasks(b));
  }

  // ---------------------------------------------------------------------------
  // Delete All
  // ---------------------------------------------------------------------------

  /** The toolbar's "Delete All": `bulkDeleteTasks` of the selection listed in
      some order (`Array.from` of the set). */
  function DeleteSelected(b: Board, order: seq<string>): (r: Board)
    requires forall x :: x in order <==> x in b.selected
    ensures r.tasks.Keys == b.tasks.Keys - b.selected
    ensures forall x :: x in r.tasks ==> r.tasks[x] == b.tasks[x]
    ensures forall k, x :: 0 <= k < |r.columns| && x in r.columns[k].taskIds ==> x !in b.selected
    ensures r.selected == {}
    ensures r == BulkDeleteTasks(b, order)
  {
    BulkDeleteTasks(b, order)
  }

  /** Deleting a list removes the same ids from a column whatever the list's order. */
  lemma {:induction false} WithoutAnySameMembers(s: seq<string>, xs: seq<string>, ys: seq<string>)
    requires forall y :: y in xs <==> y in ys
    ensures WithoutAny(s, xs) == WithoutAny(s, ys)
  {
    if |s| > 0 {
      WithoutAnySameMembers(s[1..], xs, ys);
    }
  }

  /** The order in which the selection is listed does not matter. */
  lemma DeleteSelectedOrderIrrelevant(b: Board, o1: seq<string>, o2: seq<string>)
    requires forall x :: x in o1 <==> x in b.selected
    requires forall x :: x in o2 <==> x in b.selected
    ensures DeleteSelected(b, o1) == DeleteSelected(b, o2)
  {
    var r1 := DeleteSelected(b, o1);
    var r2 := DeleteSelected(b, o2);
    forall k | 0 <= k < |b.columns|
      ensures r1.columns[k] == r2.columns[k]
    {
      WithoutAnySameMembers(b.columns[k].taskIds, o1, o2);
    }
  }

  /** "Delete All" keeps a consistent board consistent. */
  lemma DeleteSelectedPreservesWellFormed(b: Board, order: seq<string>)
    requires WellFormed(b)
    requires forall x :: x in order <==> x in b.selected
    ensures WellFormed(DeleteSelected(b, order))
  {
    BulkDeletePreservesWellFormed(b, order);
  }
}

=== FILE: column_utils.dfy ===
/** WIP-limit predicates, the progress percentage and the per-column counts.
    A limit is in force only when `maxTasks` is present and non-zero, because
    the source tests it with `!column.maxTasks`. */
module ColumnUtils {
  import opened KanbanTypes

  /** The column carries a WIP limit that the source treats as set. */
  predicate HasLimit(c: Column)
  {
    c.maxTasks.Some? && c.maxTasks.value > 0
  }

  function MinReal(a: real, b: real): real
  {
    if a <= b then a else b
  }

  /** `getColumnProgress`: the fill percentage, capped at 100, over reals. */
  function ColumnProgress(c: Column, taskCount: int): (r: real)
    ensures !HasLimit(c) ==> r == 0.0
    ensures r <= 100.0
  {
    if !HasLimit(c) then 0.0
    else MinReal((taskCount as real / c.maxTasks.value as real) * 100.0, 100.0)
  }

  /** For a non-negative count the progress lies in [0, 100], and it is full
      exactly when the count has reached the limit. */
  lemma ProgressBounds(c: Column, taskCount: int)
    requires HasLimit(c) && taskCount >= 0
    ensures 0.0 <= ColumnProgress(c, taskCount) <= 100.0
    ensures ColumnProgress(c, taskCount) == 100.0 <==> taskCount >= c.maxTasks.value
  {
    var n := taskCount as real;
    var m := c.maxTasks.value as real;
    var q := n / m;
    assert n == q * m;
    assert q >= 0.0;
    assert q * 100.0 >= 100.0 <==> q >= 1.0;
    assert q >= 1.0 <==> n >= m;
  }

  /** `isNearWIPLimit`: the count has reached 80% of the limit. */
  function IsNearWipLimit(c: Column, taskCount: int): (r: bool)
    ensures r <==> HasLimit(c) && 5 * taskCount >= 4 * c.maxTasks.value
  {
    HasLimit(c) && taskCount as real >= c.maxTasks.value as real * 0.8
  }

  /** `isAtWIPLimit`: a limit is set and the count has reached it; a column at
      its limit is also near it. */
  function IsAtWipLimit(c: Column, taskCount: int): (r: bool)
    ensures r <==> HasLimit(c) && taskCount >= c.maxTasks.value
    ensures !HasLimit(c) ==> !r
    ensures r ==> IsNearWipLimit(c, taskCount)
  {
    HasLimit(c) && taskCount >= c.maxTasks.value
  }

  /** `canAddTaskToColumn`: exactly the negation of being at the limit. */
  function CanAddTaskToColumn(c: Column, currentTaskCount: int): (r: bool)
    ensures r <==> !IsAtWipLimit(c, currentTaskCount)
    ensures !HasLimit(c) ==> r
  {
    !HasLimit(c) || currentTaskCount < c.maxTasks.value
  }

  /** `taskIds.map(id => tasks[id]).filter(Boolean)`: the records of the ids
      that are keys of `tasks`, in column order. */
  function Present(ids: seq<string>, tasks: map<string, Task>): (r: seq<Task>)
    ensures |r| <= |ids|
    ensures forall t :: t in r ==> t in tasks.Values
    ensures (forall id :: id in ids ==> id in tasks) ==> |r| == |ids| && forall i :: 0 <= i < |ids| ==> r[i] == tasks[ids[i]]
    ensures (forall id :: id in ids ==> id !in tasks) ==> r == []
  {
    if |ids| == 0 then []
    else
      var rest := Present(ids[1..], tasks);
      assert forall id :: id in ids[1..] ==> id in ids;
      if ids[0] in tasks then
        assert tasks[ids[0]] in tasks.Values;
        [tasks[ids[0]]] + rest
      else rest
  }

  /** Projection distributes over concatenation, so relative order is kept. */
  lemma {:induction false} PresentAppend(a: seq<string>, b: seq<string>, tasks: map<string, Task>)
    ensures Present(a + b, tasks) == Present(a, tasks) + Present(b, tasks)
  {
    if |a| > 0 {
      PresentAppend(a[1..], b, tasks);
      assert (a + b)[1..] == a[1..] + b;
      assert (a + b)[0] == a[0];
    } else {
      assert a + b == b;
    }
  }

  /** The number of records with the given priority. */
  function CountPriority(ts: seq<Task>, p: Priority): (n: nat)
    ensures n <= |ts|
  {
    if |ts| == 0 then 0
    else (if ts[0].priority == Some(p) then 1 else 0) + CountPriority(ts[1..], p)
  }

  /** The priorities of a list of records, position by position. */
  function PriorityList(ts: seq<Task>): (r: seq<Option<Priority>>)
    ensures |r| == |ts| && forall i :: 0 <= i < |ts| ==> r[i] == ts[i].priority
  {
    seq(|ts|, i requires 0 <= i < |ts| => ts[i].priority)
  }

  /** The count of a priority is how often it occurs among the records'
      priorities. */
  lemma {:induction false} CountPriorityIsMultiplicity(ts: seq<Task>, p: Priority)
    ensures CountPriority(ts, p) == multiset(PriorityList(ts))[Some(p)]
  {
    if |ts| > 0 {
      CountPriorityIsMultiplicity(ts[1..], p);
      assert PriorityList(ts) == [ts[0].priority] + PriorityList(ts[1..]);
    }
  }

  /** No record is counted under two priorities. */
  lemma {:induction false} CountTwoPriorities(ts: seq<Task>, p: Priority, q: Priority)
    requires p != q
    ensures CountPriority(ts, p) + CountPriority(ts, q) <= |ts|
  {
    if |ts| > 0 {
      CountTwoPriorities(ts[1..], p, q);
    }
  }

  /** `getColumnStats` without the wall-clock `overdue` count. */
  datatype ColumnStats = ColumnStats(total: nat, highPriority: nat, urgent: nat)

  function GetColumnStats(c: Column, tasks: map<string, Task>): (r: ColumnStats)
    ensures r.total == |Present(c.taskIds, tasks)| && r.total <= |c.taskIds|
    ensures r.highPriority == multiset(PriorityList(Present(c.taskIds, tasks)))[Some(High)]
    ensures r.urgent == multiset(PriorityList(Present(c.taskIds, tasks)))[Some(Urgent)]
    ensures r.highPriority + r.urgent <= r.total
    ensures (forall id :: id in c.taskIds ==> id in tasks) ==> r.total == |c.taskIds|
  {
    var ts := Present(c.taskIds, tasks);
    CountTwoPriorities(ts, High, Urgent);
    CountPriorityIsMultiplicity(ts, High);
    CountPriorityIsMultiplicity(ts, Urgent);
    ColumnStats(|ts|, CountPriority(ts, High), CountPriority(ts, Urgent))
  }
}

=== FILE: drag_and_drop.dfy ===
/** The drag state machine behind the board: which task is being dragged,
    from which column, and where the pointer hovers. `null` is `None`. */
module DragAndDrop {
  import opened KanbanTypes

  datatype DragState = DragState(
    isDragging: bool,
    draggedTaskId: Option<string>,
    draggedFromColumn: Option<string>,
    dragOverColumn: Option<string>,
    dragOverIndex: Option<int>)

  /** The state before any drag, and after every drag ends. */
  const Idle := DragState(false, None, None, None, None)

  /** The dragging flag and the two drag-source fields go together. */
  predicate Coherent(d: DragState)
  {
    && (d.isDragging <==> d.draggedTaskId.Some?)
    && (d.isDragging <==> d.draggedFromColumn.Some?)
  }

  /** `handleDragStart`: a fresh drag from `columnId`, replacing whatever drag
      was in progress and clearing the hover target. */
  function DragStart(d: DragState, taskId: string, columnId: string): (r: DragState)
    ensures Coherent(r) && r.isDragging
    ensures r.draggedTaskId == Some(taskId) && r.draggedFromColumn == Some(columnId)
    ensures r.dragOverColumn.None? && r.dragOverIndex.None?
  {
    DragState(true, Some(taskId), Some(columnId), None, None)
  }

  /** `handleDragOver`: records the hover target and nothing else, whether or
      not a drag is in progress. */
  function DragOver(d: DragState, columnId: string, index: int): (r: DragState)
    ensures r.dragOverColumn == Some(columnId) && r.dragOverIndex == Some(index)
    ensures r.(dragOverColumn := d.dragOverColumn, dragOverIndex := d.dragOverIndex) == d
  {
    d.(dragOverColumn := Some(columnId), dragOverIndex := Some(index))
  }

  /** `handleDragEnd`: back to the idle state from any state. */
  function DragEnd(d: DragState): (r: DragState)
    ensures Coherent(r) && !r.isDragging
    ensures r.draggedTaskId.None? && r.draggedFromColumn.None?
    ensures r.dragOverColumn.None? && r.dragOverIndex.None?
  {
    Idle
  }

  /** `resetDrag`: the same reset as `handleDragEnd`. */
  function ResetDrag(d: DragState): (r: DragState)
    ensures !r.isDragging && r.draggedTaskId.None? && r.draggedFromColumn.None?
    ensures r.dragOverColumn.None? && r.dragOverIndex.None?
  {
    DragState(false, None, None, None, None)
  }

  /** The two resets agree on every state. */
  lemma ResetIsDragEnd(d: DragState)
    ensures ResetDrag(d) == DragEnd(d)
  {
  }

  /** Every transition keeps the dragging flag and the drag source together. */
  lemma TransitionsKeepCoherent(d: DragState, taskId: string, columnId: string, index: int)
    requires Coherent(d)
    ensures Coherent(DragStart(d, taskId, columnId))
    ensures Coherent(DragOver(d, columnId, index))
    ensures Coherent(DragEnd(d)) && Coherent(ResetDrag(d))
  {
  }

  /** The last hover wins, and a drag that starts or ends afterwards forgets it. */
  lemma HoverIsForgotten(d: DragState, taskId: string, columnId: string, overId: string, index: int, index2: int)
    ensures DragStart(DragOver(d, overId, index), taskId, columnId) == DragStart(d, taskId, columnId)
    ensures DragEnd(DragOver(d, overId, index)) == Idle
    ensures DragOver(DragOver(d, overId, index), columnId, index2) == DragOver(d, columnId, index2)
  {
  }

  /** A hover while idle is recorded although nothing is dragged, so the hover
      fields alone do not say a drag is in progress. */
  lemma HoverWhileIdle(columnId: string, index: int)
    ensures var r := DragOver(Idle, columnId, index);
            !r.isDragging && r.dragOverColumn == Some(columnId)
  {
  }
}

=== FILE: kanban_types.dfy ===
/** The board's data model: tasks, columns, the input a new task is built
    from, and the partial record an edit merges into a task. */
module KanbanTypes {

  /** A value that may be `undefined`. */
  datatype Option<T> = None | Some(value: T)

  datatype Priority = Low | Medium | High | Urgent

  datatype TaskStatus = Todo | InProgress | Review | Done

  /** A `Date`, as milliseconds since the epoch; the model never reads the clock. */
  type Time = int

  /** A task record; the optional fields are `None` when the key is absent. */
  datatype Task = Task(
    id: string,
    title: string,
    description: Option<string>,
    status: TaskStatus,
    priority: Option<Priority>,
    assignee: Option<string>,
    tags: Option<seq<string>>,
    createdAt: Time,
    dueDate: Option<Time>)

  /** A column: `status` is the join key to tasks, `taskIds` the display order,
      `maxTasks` the optional WIP limit. */
  datatype Column = Column(
    id: string,
    title: string,
    status: TaskStatus,
    taskIds: seq<string>,
    maxTasks: Option<nat>)

  /** A task without its identifier and creation time (`Omit<KanbanTask, 'id' | 'createdAt'>`). */
  datatype TaskDraft = TaskDraft(
    title: string,
    description: Option<string>,
    status: TaskStatus,
    priority: Option<Priority>,
    assignee: Option<string>,
    tags: Option<seq<string>>,
    dueDate: Option<Time>)

  /** The record the board builds from a draft, a fresh id and the current time. */
  function NewTask(d: TaskDraft, id: string, createdAt: Time): (t: Task)
    ensures t.id == id && t.createdAt == createdAt
    ensures t.title == d.title && t.description == d.description && t.status == d.status
    ensures t.priority == d.priority && t.assignee == d.assignee
    ensures t.tags == d.tags && t.dueDate == d.dueDate
  {
    Task(id, d.title, d.description, d.status, d.priority, d.assignee, d.tags, createdAt, d.dueDate)
  }

  /** A `Partial<KanbanTask>` without `id`: `None` means the key is absent, and
      for an optional field `Some(None)` means the key is present and holds
      `undefined`, which overwrites the old value when spread. */
  datatype TaskPatch = TaskPatch(
    title: Option<string>,
    description: Option<Option<string>>,
    status: Option<TaskStatus>,
    priority: Option<Option<Priority>>,
    assignee: Option<Option<string>>,
    tags: Option<Option<seq<string>>>,
    createdAt: Option<Time>,
    dueDate: Option<Option<Time>>)

  /** The patch with no keys. */
  const EmptyPatch := TaskPatch(None, None, None, None, None, None, None, None)

  /** One key of a spread: the patch's value when the key is present, the
      record's otherwise. */
  function Override<T>(current: T, update: Option<T>): T
  {
    if update.Some? then update.value else current
  }

  /** `{ ...task, ...patch }`. */
  function Merge(t: Task, p: TaskPatch): (r: Task)
    ensures r.id == t.id
    ensures p.status.None? ==> r.status == t.status
    ensures p.status.Some? ==> r.status == p.status.value
    ensures r.title == Override(t.title, p.title)
    ensures r.description == Override(t.description, p.description)
    ensures r.priority == Override(t.priority, p.priority)
    ensures r.assignee == Override(t.assignee, p.assignee)
    ensures r.tags == Override(t.tags, p.tags)
    ensures r.createdAt == Override(t.createdAt, p.createdAt)
    ensures r.dueDate == Override(t.dueDate, p.dueDate)
  {
    Task(
      t.id,
      Override(t.title, p.title),
      Override(t.description, p.description),
      Override(t.status, p.status),
      Override(t.priority, p.priority),
      Override(t.assignee, p.assignee),
      Override(t.tags, p.tags),
      Override(t.createdAt, p.createdAt),
      Override(t.dueDate, p.dueDate))
  }

  /** Merging the empty patch changes nothing, and merging a patch a second time
      changes nothing more. */
  lemma MergeLaws(t: Task, p: TaskPatch)
    ensures Merge(t, EmptyPatch) == t
    ensures Merge(Merge(t, p), p) == Merge(t, p)
  {
  }
}

=== FILE: sequences.dfy ===
/** Sequence surgery shared by the column algorithms, the board engine and the
    task form: removal at an index, insertion at a clamped index (what
    `Array.prototype.splice` does with a non-negative start), removal of every
    occurrence of a value, and `indexOf`. */
module Sequences {

  /** Where `splice(j, 0, x)` inserts into an array of length `n`: a start
      beyond the end is clamped to the end. */
  function Clamp(j: nat, n: nat): (k: nat)
    ensures k <= n
    ensures k == j || (k == n && j > n)
  {
    if j < n then j else n
  }

  /** `splice(i, 1)` on a valid index: the element at `i` is taken out. */
  function RemoveAt<T>(s: seq<T>, i: nat): (r: seq<T>)
    requires i < |s|
    ensures |r| == |s| - 1
    ensures forall k :: 0 <= k < i ==> r[k] == s[k]
    ensures forall k :: i <= k < |r| ==> r[k] == s[k + 1]
    ensures multiset(r) + multiset{s[i]} == multiset(s)
  {
    assert s == s[..i] + [s[i]] + s[i + 1..];
    s[..i] + s[i + 1..]
  }

  /** `splice(j, 0, x)`: `x` is inserted before position `Clamp(j, |s|)`. */
  function InsertAt<T>(s: seq<T>, j: nat, x: T): (r: seq<T>)
    ensures |r| == |s| + 1
    ensures r[Clamp(j, |s|)] == x
    ensures RemoveAt(r, Clamp(j, |s|)) == s
    ensures multiset(r) == multiset(s) + multiset{x}
  {
    var k := Clamp(j, |s|);
    assert s == s[..k] + s[k..];
    var r := s[..k] + [x] + s[k..];
    assert RemoveAt(r, k) == s;
    r
  }

  /** Putting an element back where it was taken from restores the sequence. */
  lemma InsertAtRemoveAt<T>(s: seq<T>, i: nat)
    requires i < |s|
    ensures InsertAt(RemoveAt(s, i), i, s[i]) == s
  {
    var r := InsertAt(RemoveAt(s, i), i, s[i]);
    assert Clamp(i, |s| - 1) == i;
    assert forall k :: 0 <= k < |s| ==> r[k] == s[k];
  }

  /** `a` is obtained from `b` by deleting elements, keeping the order of the rest. */
  predicate IsSubsequence<T(==)>(a: seq<T>, b: seq<T>)
  {
    if |b| == 0 then |a| == 0
    else (|a| > 0 && a[0] == b[0] && IsSubsequence(a[1..], b[1..])) || IsSubsequence(a, b[1..])
  }

  /** `s.filter(y => y !== x)`: every occurrence of `x` removed, the rest kept in order. */
  function Without<T(==)>(s: seq<T>, x: T): (r: seq<T>)
    ensures multiset(r) == multiset(s)[x := 0]
    ensures x !in r
    ensures forall y :: y in r ==> y in s
    ensures IsSubsequence(r, s)
  {
    if |s| == 0 then []
    else
      assert s == [s[0]] + s[1..];
      var rest := Without(s[1..], x);
      if s[0] == x then rest
      else
        assert ([s[0]] + rest)[1..] == rest;
        [s[0]] + rest
  }

  /** Filtering out a value that does not occur changes nothing. */
  lemma {:induction false} WithoutAbsent<T>(s: seq<T>, x: T)
    requires x !in s
    ensures Without(s, x) == s
  {
    if |s| > 0 {
      WithoutAbsent(s[1..], x);
      assert s == [s[0]] + s[1..];
    }
  }

  /** `s.filter(y => !xs.includes(y))`: every element listed in `xs` removed,
      the rest kept in order. */
  function WithoutAny<T(==)>(s: seq<T>, xs: seq<T>): (r: seq<T>)
    ensures forall y :: y in xs ==> y !in r
    ensures forall y :: y in s && y !in xs ==> multiset(r)[y] == multiset(s)[y]
    ensures forall y :: y in r ==> y in s
    ensures IsSubsequence(r, s)
  {
    if |s| == 0 then []
    else
      assert s == [s[0]] + s[1..];
      var rest := WithoutAny(s[1..], xs);
      if s[0] in xs then rest
      else
        assert ([s[0]] + rest)[1..] == rest;
        [s[0]] + rest
  }

  /** Removing the ids `[x] + xs` equals removing `x` first, then `xs`. */
  lemma {:induction false} WithoutAnyCons<T>(s: seq<T>, x: T, xs: seq<T>)
    ensures WithoutAny(s, [x] + xs) == WithoutAny(Without(s, x), xs)
  {
    if |s| > 0 {
      WithoutAnyCons(s[1..], x, xs);
      assert s == [s[0]] + s[1..];
      assert s[0] in [x] + xs <==> s[0] == x || s[0] in xs;
      if s[0] == x {
        assert Without(s, x) == Without(s[1..], x);
        assert WithoutAny(s, [x] + xs) == WithoutAny(s[1..], [x] + xs);
      } else {
        assert Without(s, x) == [s[0]] + Without(s[1..], x);
        assert (Without(s, x))[1..] == Without(s[1..], x);
        if s[0] in xs {
          assert WithoutAny(s, [x] + xs) == WithoutAny(s[1..], [x] + xs);
          assert WithoutAny(Without(s, x), xs) == WithoutAny(Without(s[1..], x), xs);
        } else {
          assert WithoutAny(s, [x] + xs) == [s[0]] + WithoutAny(s[1..], [x] + xs);
          assert WithoutAny(Without(s, x), xs) == [s[0]] + WithoutAny(Without(s[1..], x), xs);
        }
      }
    }
  }

  /** `indexOf`: the first position holding `x`, or -1. */
  function IndexOf<T(==)>(s: seq<T>, x: T): (r: int)
    ensures -1 <= r < |s|
    ensures r == -1 <==> x !in s
    ensures r >= 0 ==> s[r] == x && x !in s[..r]
  {
    if |s| == 0 then -1
    else if s[0] == x then 0
    else
      var k := IndexOf(s[1..], x);
      assert s == [s[0]] + s[1..];
      if k == -1 then -1
      else
        assert s[..k + 1] == [s[0]] + s[1..][..k];
        k + 1
  }

  /** No value occurs twice. */
  predicate NoDuplicates<T(==)>(s: seq<T>)
  {
    forall i, j :: 0 <= i < j < |s| ==> s[i] != s[j]
  }

  /** The first `n` elements, or all of them when there are fewer (`slice(0, n)`). */
  function Take<T>(s: seq<T>, n: nat): (r: seq<T>)
    ensures |r| <= n && |r| <= |s|
    ensures r == s[..|r|]
    ensures |r| == n || r == s
  {
    if |s| <= n then s else s[..n]
  }
}

=== FILE: strings.dfy ===
/** The string operations the board uses — `trim`, `toLowerCase`,
    `toUpperCase`, `includes` and `split(' ')` — restricted to ASCII: the
    whitespace set is the ASCII one and case mapping touches only A-Z / a-z. */
module Strings {

  /** ASCII whitespace: space, tab, line feed, vertical tab, form feed, carriage return. */
  predicate IsWhitespace(c: char)
  {
    c == ' ' || '\t' <= c <= '\r'
  }

  /** Leading whitespace removed: the result is a suffix of `s`. */
  function TrimStart(s: string): (r: string)
    ensures |r| <= |s| && r == s[|s| - |r|..]
    ensures |r| > 0 ==> !IsWhitespace(r[0])
    ensures forall i :: 0 <= i < |s| - |r| ==> IsWhitespace(s[i])
  {
    if |s| > 0 && IsWhitespace(s[0]) then TrimStart(s[1..]) else s
  }

  /** Trailing whitespace removed: the result is a prefix of `s`. */
  function TrimEnd(s: string): (r: string)
    ensures |r| <= |s| && r == s[..|r|]
    ensures |r| > 0 ==> !IsWhitespace(r[|r| - 1])
    ensures forall i :: |r| <= i < |s| ==> IsWhitespace(s[i])
  {
    if |s| > 0 && IsWhitespace(s[|s| - 1]) then TrimEnd(s[..|s| - 1]) else s
  }

  /** `r` is the slice of `s` starting at `a`, with only whitespace cut from
      either side of it. */
  predicate SliceAfterTrim(r: string, s: string, a: nat)
  {
    && a + |r| <= |s|
    && r == s[a..a + |r|]
    && (forall i :: 0 <= i < a ==> IsWhitespace(s[i]))
    && (forall i :: a + |r| <= i < |s| ==> IsWhitespace(s[i]))
  }

  /** `trim()`: blank exactly when every character is whitespace, and otherwise
      starting and ending with a non-whitespace character. */
  function Trim(s: string): (r: string)
    ensures |r| == 0 <==> forall i :: 0 <= i < |s| ==> IsWhitespace(s[i])
    ensures |r| > 0 ==> !IsWhitespace(r[0]) && !IsWhitespace(r[|r| - 1])
    ensures |r| <= |s|
  {
    var front := TrimStart(s);
    var r := TrimEnd(front);
    assert forall i :: |s| - |front| <= i < |s| ==> s[i] == front[i - (|s| - |front|)];
    r
  }

  /** What `trim()` returns is a contiguous slice of its input, with only
      whitespace cut from either end. */
  lemma TrimIsSlice(s: string)
    ensures exists a: nat :: SliceAfterTrim(Trim(s), s, a)
  {
    var front := TrimStart(s);
    var r := TrimEnd(front);
    var a := |s| - |front|;
    assert Trim(s) == r;
    assert front == s[a..];
    assert r == front[..|r|] == s[a..a + |r|];
    assert forall i :: a + |r| <= i < |s| ==> s[i] == front[i - a];
    assert SliceAfterTrim(r, s, a);
  }

  function LowerChar(c: char): char
  {
    if 'A' <= c <= 'Z' then (c as int + 32) as char else c
  }

  function UpperChar(c: char): char
  {
    if 'a' <= c <= 'z' then (c as int - 32) as char else c
  }

  /** `toLowerCase()`, ASCII letters only. */
  function ToLower(s: string): (r: string)
    ensures |r| == |s|
    ensures forall i :: 0 <= i < |s| ==> r[i] == LowerChar(s[i])
  {
    seq(|s|, i requires 0 <= i < |s| => LowerChar(s[i]))
  }

  /** `toUpperCase()`, ASCII letters only. */
  function ToUpper(s: string): (r: string)
    ensures |r| == |s|
    ensures forall i :: 0 <= i < |s| ==> r[i] == UpperChar(s[i])
  {
    seq(|s|, i requires 0 <= i < |s| => UpperChar(s[i]))
  }

  predicate StartsWith(s: string, prefix: string)
  {
    |prefix| <= |s| && s[..|prefix|] == prefix
  }

  /** `hay.includes(needle)`, by scanning every start position. */
  function Contains(hay: string, needle: string): bool
  {
    StartsWith(hay, needle) || (|hay| > 0 && Contains(hay[1..], needle))
  }

  /** `needle` occurs in `hay` starting at position `i`. */
  predicate OccursAt(hay: string, needle: string, i: nat)
  {
    i + |needle| <= |hay| && hay[i..i + |needle|] == needle
  }

  /** An occurrence one position further in `hay` is an occurrence in its tail. */
  lemma OccursAtShift(hay: string, needle: string, i: nat)
    requires |hay| > 0
    ensures OccursAt(hay, needle, i + 1) <==> OccursAt(hay[1..], needle, i)
  {
    if i + 1 + |needle| <= |hay| {
      assert hay[i + 1..i + 1 + |needle|] == hay[1..][i..i + |needle|];
    }
  }

  /** The scan finds `needle` exactly when it occurs as a contiguous slice of `hay`. */
  lemma {:induction false} ContainsIsSubstring(hay: string, needle: string)
    ensures Contains(hay, needle) <==> exists i: nat :: OccursAt(hay, needle, i)
  {
    if |hay| > 0 {
      ContainsIsSubstring(hay[1..], needle);
      if Contains(hay, needle) {
        if StartsWith(hay, needle) {
          assert OccursAt(hay, needle, 0);
        } else {
          var i: nat :| OccursAt(hay[1..], needle, i);
          OccursAtShift(hay, needle, i);
        }
      } else {
        forall i: nat | i + |needle| <= |hay|
          ensures !OccursAt(hay, needle, i)
        {
          if i > 0 {
            OccursAtShift(hay, needle, i - 1);
          }
        }
      }
    } else {
      if Contains(hay, needle) {
        assert OccursAt(hay, needle, 0);
      }
    }
  }

  /** `s.split(sep)`: the maximal separator-free pieces, empty ones included. */
  function Split(s: string, sep: char): (r: seq<string>)
    ensures |r| >= 1
    ensures forall k :: 0 <= k < |r| ==> sep !in r[k]
  {
    if |s| == 0 then [""]
    else if s[0] == sep then [""] + Split(s[1..], sep)
    else
      var rest := Split(s[1..], sep);
      [[s[0]] + rest[0]] + rest[1..]
  }

  /** `parts.join(sep)`. */
  function Join(parts: seq<string>, sep: char): string
  {
    if |parts| == 0 then ""
    else if |parts| == 1 then parts[0]
    else parts[0] + [sep] + Join(parts[1..], sep)
  }

  /** Splitting loses nothing: joining the pieces with the separator gives back the input. */
  lemma {:induction false} JoinSplit(s: string, sep: char)
    ensures Join(Split(s, sep), sep) == s
  {
    if |s| > 0 {
      JoinSplit(s[1..], sep);
      var rest := Split(s[1..], sep);
      if s[0] == sep {
        assert Split(s, sep) == [""] + rest;
        assert ([""] + rest)[1..] == rest;
        assert s == [sep] + s[1..];
      } else {
        assert Split(s, sep) == [[s[0]] + rest[0]] + rest[1..];
        assert ([[s[0]] + rest[0]] + rest[1..])[1..] == rest[1..];
        if |rest| > 1 {
          assert Join(rest, sep) == rest[0] + [sep] + Join(rest[1..], sep);
        }
        assert s == [s[0]] + s[1..];
      }
    }
  }
}

=== FILE: task_form.dfy ===
/** The task editor's form logic: loading a task (or a blank form) into the
    form fields, turning the fields back into a task on submit, and the tag
    list's add and remove buttons. Date formatting and parsing, which the
    source delegates to `Date`, are parameters. */
module TaskForm {
  import opened KanbanTypes
  import opened Sequences
  import opened Strings
  import BoardEngine

  /** The form's fields: every text input holds a string, empty when unset. */
  datatype FormData = FormData(
    title: string,
    description: string,
    priority: Priority,
    status: TaskStatus,
    assignee: string,
    tags: seq<string>,
    dueDate: string)

  /** `value || ''`. */
  function OrEmpty(s: Option<string>): (r: string)
    ensures s.None? ==> r == ""
    ensures s.Some? ==> r == s.value
  {
    if s.Some? then s.value else ""
  }

  /** `value || undefined` on a string: the empty string is falsy. */
  function NonEmpty(s: string): (r: Option<string>)
    ensures r.None? <==> |s| == 0
    ensures r.Some? ==> r.value == s
  {
    if |s| == 0 then None else Some(s)
  }

  /** The form of the create dialog: empty fields, medium priority, and the
      status of the column whose "add" button opened it. */
  function BlankForm(initialStatus: TaskStatus): (f: FormData)
    ensures f.status == initialStatus && f.priority == Medium
    ensures |f.title| == 0 && |f.description| == 0 && |f.assignee| == 0 && |f.tags| == 0 && |f.dueDate| == 0
  {
    FormData("", "", Medium, initialStatus, "", [], "")
  }

  /** The effect that fills the form when the dialog opens: a task's fields,
      with absent text shown as empty, an absent priority as medium, and the
      due date in the `YYYY-MM-DD` form `formatDate` produces. */
  function LoadForm(task: Option<Task>, initialStatus: TaskStatus, formatDate: Time -> string): (f: FormData)
    ensures task.None? ==> f == BlankForm(initialStatus)
    ensures task.Some? ==> f.title == task.value.title && f.status == task.value.status
    ensures task.Some? ==> f.description == OrEmpty(task.value.description) && f.assignee == OrEmpty(task.value.assignee)
    ensures task.Some? ==> f.priority == (if task.value.priority.Some? then task.value.priority.value else Medium)
    ensures task.Some? ==> f.tags == (if task.value.tags.Some? then task.value.tags.value else [])
    ensures task.Some? ==> f.dueDate == (if task.value.dueDate.Some? then formatDate(task.value.dueDate.value) else "")
  {
    match task
    case None => BlankForm(initialStatus)
    case Some(t) =>
      FormData(
        t.title,
        OrEmpty(t.description),
        if t.priority.Some? then t.priority.value else Medium,
        t.status,
        OrEmpty(t.assignee),
        if t.tags.Some? then t.tags.value else [],
        if t.dueDate.Some? then formatDate(t.dueDate.value) else "")
  }

  /** The `taskData` built on submit: empty text becomes absent, an empty tag
      list becomes absent, and a non-empty date string is parsed. The title is
      kept as typed, untrimmed. */
  function FormToDraft(f: FormData, parseDate: string -> Time): (d: TaskDraft)
    ensures d.title == f.title && d.status == f.status && d.priority == Some(f.priority)
    ensures d.description == NonEmpty(f.description) && d.assignee == NonEmpty(f.assignee)
    ensures d.tags.None? <==> |f.tags| == 0
    ensures d.tags.Some? ==> d.tags.value == f.tags
    ensures d.dueDate.None? <==> |f.dueDate| == 0
    ensures d.dueDate.Some? ==> d.dueDate.value == parseDate(f.dueDate)
  {
    TaskDraft(
      f.title,
      NonEmpty(f.description),
      f.status,
      Some(f.priority),
      NonEmpty(f.assignee),
      if |f.tags| > 0 then Some(f.tags) else None,
      if |f.dueDate| > 0 then Some(parseDate(f.dueDate)) else None)
  }

  /** The draft as the `updates` record `onSave` receives: every key of the
      draft is present, and `id` and `createdAt` are not. */
  function DraftPatch(d: TaskDraft): (p: TaskPatch)
    ensures p.createdAt.None?
    ensures p.title == Some(d.title) && p.status == Some(d.status)
  {
    TaskPatch(Some(d.title), Some(d.description), Some(d.status), Some(d.priority),
              Some(d.assignee), Some(d.tags), None, Some(d.dueDate))
  }

  /** Saving a draft over a task replaces every field except the id and the
      creation time, including clearing the optional fields the draft leaves
      absent. */
  lemma SaveReplacesFields(t: Task, d: TaskDraft)
    ensures Merge(t, DraftPatch(d)) == NewTask(d, t.id, t.createdAt)
  {
  }

  /** What a submit does. */
  datatype Submission =
    | Ignored                                   // blank title: nothing happens and the dialog stays open
    | Save(taskId: string, patch: TaskPatch)    // `onSave(task.id, taskData)`, then close
    | Create(draft: TaskDraft)                  // `onCreate(taskData)`, then close
    | CloseOnly                                 // no task and no `onCreate`: just close

  /** `handleSubmit`. `canCreate` says whether an `onCreate` callback was passed. */
  function Submit(f: FormData, task: Option<Task>, canCreate: bool, parseDate: string -> Time): (r: Submission)
    ensures r.Ignored? <==> |Trim(f.title)| == 0
    ensures r.Save? <==> |Trim(f.title)| > 0 && task.Some?
    ensures r.Create? <==> |Trim(f.title)| > 0 && task.None? && canCreate
    ensures r.Save? ==> r.taskId == task.value.id && Merge(task.value, r.patch) == NewTask(FormToDraft(f, parseDate), task.value.id, task.value.createdAt)
    ensures r.Create? ==> r.draft == FormToDraft(f, parseDate)
  {
    if |Trim(f.title)| == 0 then Ignored
    else
      var d := FormToDraft(f, parseDate);
      if task.Some? then Save(task.value.id, DraftPatch(d))
      else if canCreate then Create(d)
      else CloseOnly
  }

  /** A submission is refused exactly when the title is all whitespace, even
      though an accepted title is stored untrimmed. */
  lemma BlankTitleIgnored(f: FormData, task: Option<Task>, canCreate: bool, parseDate: string -> Time)
    ensures Submit(f, task, canCreate, parseDate) == Ignored <==>
      forall i :: 0 <= i < |f.title| ==> IsWhitespace(f.title[i])
  {
  }

  /** For instance, a title of spaces and a tab. */
  lemma SpacesAndTabIgnored(task: Option<Task>, canCreate: bool, parseDate: string -> Time)
    ensures Submit(FormData(" \t ", "", Medium, Todo, "", [], ""), task, canCreate, parseDate) == Ignored
  {
    var s := " \t ";
    assert IsWhitespace(s[0]) && IsWhitespace(s[1]) && IsWhitespace(s[2]);
    BlankTitleIgnored(FormData(s, "", Medium, Todo, "", [], ""), task, canCreate, parseDate);
  }

  /** The fields a task can hold that the form cannot show apart from absence:
      an empty description or assignee, an empty tag list, and a due date the
      day format does not reproduce. */
  predicate FormFaithful(t: Task, formatDate: Time -> string, parseDate: string -> Time)
  {
    && t.description != Some("") && t.assignee != Some("")
    && t.priority.Some?
    && (t.tags.Some? ==> |t.tags.value| > 0)
    && (t.dueDate.Some? ==> |formatDate(t.dueDate.value)| > 0 && parseDate(formatDate(t.dueDate.value)) == t.dueDate.value)
  }

  /** Opening a task and saving without edits leaves it unchanged exactly when
      the form can show every field of it. */
  lemma SaveUnedited(t: Task, canCreate: bool, formatDate: Time -> string, parseDate: string -> Time)
    requires |Trim(t.title)| > 0
    ensures var f := LoadForm(Some(t), t.status, formatDate);
            var r := Submit(f, Some(t), canCreate, parseDate);
            r.Save? && (Merge(t, r.patch) == t <==> FormFaithful(t, formatDate, parseDate))
  {
    var f := LoadForm(Some(t), t.status, formatDate);
    var n := NewTask(FormToDraft(f, parseDate), t.id, t.createdAt);
    if n == t {
      if t.dueDate.Some? {
        assert |f.dueDate| > 0;
      }
    }
  }

  /** Saving an unedited task that had no priority gives it medium priority. */
  lemma SaveAssignsPriority(t: Task, canCreate: bool, formatDate: Time -> string, parseDate: string -> Time)
    requires |Trim(t.title)| > 0 && t.priority.None?
    ensures var r := Submit(LoadForm(Some(t), t.status, formatDate), Some(t), canCreate, parseDate);
            r.Save? && Merge(t, r.patch).priority == Some(Medium)
  {
  }

  /** A form turned into a task and loaded back is the same form, provided the
      date format reproduces the typed date. */
  lemma FormRoundTrip(f: FormData, id: string, now: Time, formatDate: Time -> string, parseDate: string -> Time)
    requires |f.dueDate| > 0 ==> formatDate(parseDate(f.dueDate)) == f.dueDate
    ensures LoadForm(Some(NewTask(FormToDraft(f, parseDate), id, now)), Todo, formatDate) == f
  {
  }

  // ---------------------------------------------------------------------------
  // Tags
  // ---------------------------------------------------------------------------

  /** The tag list and the tag input box after a button press. */
  datatype TagEdit = TagEdit(tags: seq<string>, input: string)

  /** `handleAddTag`: the trimmed input is appended and the box cleared, unless
      it is blank or already listed, in which case nothing changes. */
  function AddTag(tags: seq<string>, input: string): (r: TagEdit)
    ensures var v := Trim(input);
            if |v| > 0 && v !in tags then r == TagEdit(tags + [v], "") else r == TagEdit(tags, input)
  {
    var v := Trim(input);
    if |v| > 0 && v !in tags then TagEdit(tags + [v], "") else TagEdit(tags, input)
  }

  /** `handleRemoveTag`: every copy of the tag is removed, the rest kept in order. */
  function RemoveTag(tags: seq<string>, tag: string): (r: seq<string>)
    ensures tag !in r
    ensures forall y :: y in r ==> y in tags
    ensures forall y :: y != tag ==> multiset(r)[y] == multiset(tags)[y]
    ensures IsSubsequence(r, tags)
  {
    Without(tags, tag)
  }

  /** Adding never creates a duplicate, never adds a blank or untrimmed tag,
      and keeps every tag already there. */
  lemma AddTagKeepsTagsClean(tags: seq<string>, input: string)
    requires NoDuplicates(tags)
    ensures var r := AddTag(tags, input).tags;
            NoDuplicates(r) && |r| <= |tags| + 1 && r[..|tags|] == tags
            && forall i :: |tags| <= i < |r| ==> r[i] == Trim(input) && |r[i]| > 0
  {
    var r := AddTag(tags, input).tags;
    assert r[..|tags|] == tags;
  }

  /** Pressing "add" again with the same text changes nothing more. */
  lemma AddTagIdempotent(tags: seq<string>, input: string)
    ensures AddTag(AddTag(tags, input).tags, input).tags == AddTag(tags, input).tags
  {
  }

  /** Removing a tag just added restores the list. */
  lemma RemoveUndoesAdd(tags: seq<string>, input: string)
    requires |Trim(input)| > 0 && Trim(input) !in tags
    ensures RemoveTag(AddTag(tags, input).tags, Trim(input)) == tags
  {
    var v := Trim(input);
    WithoutAppendLast(tags, v);
  }

  lemma {:induction false} WithoutAppendLast(s: seq<string>, x: string)
    requires x !in s
    ensures Without(s + [x], x) == s
  {
    if |s| == 0 {
      assert [] + [x] == [x];
      assert [x][1..] == [];
    } else {
      WithoutAppendLast(s[1..], x);
      assert (s + [x])[1..] == s[1..] + [x];
      assert (s + [x])[0] == s[0];
      assert s == [s[0]] + s[1..];
    }
  }

  // ---------------------------------------------------------------------------
  // Effect on the board
  // ---------------------------------------------------------------------------

  /** What the board does with a submission: `updateTask` for a save, `addTask`
      with a fresh id and the current time for a create. */
  function ApplySubmission(b: BoardEngine.Board, s: Submission, newId: string, now: Time): (r: BoardEngine.Board)
    requires s.Save? ==> s.taskId in b.tasks
    ensures s.Ignored? || s.CloseOnly? ==> r == b
    ensures s.Save? ==> r.tasks.Keys == b.tasks.Keys
    ensures s.Create? ==> r.tasks.Keys == b.tasks.Keys + {newId} && r.tasks[newId] == NewTask(s.draft, newId, now)
    ensures s.Save? ==> r == BoardEngine.UpdateTask(b, s.taskId, s.patch)
    ensures s.Create? ==> r == BoardEngine.AddTask(b, s.draft, newId, now)
  {
    match s
    case Ignored => b
    case CloseOnly => b
    case Save(id, p) => BoardEngine.UpdateTask(b, id, p)
    case Create(d) =>
      var r := BoardEngine.AddTask(b, d, newId, now);
      assert r.tasks[newId].(id := "", createdAt := 0) == NewTask(d, "", 0);
      r
  }

  /** Creating from the dialog stores exactly the task the form describes,
      which loads back into the same form. */
  lemma CreateStoresForm(b: BoardEngine.Board, f: FormData, newId: string, now: Time, formatDate: Time -> string, parseDate: string -> Time)
    requires |Trim(f.title)| > 0
    requires |f.dueDate| > 0 ==> formatDate(parseDate(f.dueDate)) == f.dueDate
    ensures var r := ApplySubmission(b, Submit(f, None, true, parseDate), newId, now);
            newId in r.tasks && LoadForm(Some(r.tasks[newId]), Todo, formatDate) == f
  {
    FormRoundTrip(f, newId, now, formatDate, parseDate);
  }
}

=== FILE: task_utils.dfy ===
/** The column-sequence algorithms behind drag-and-drop (`reorderTasks`,
    `moveTaskBetweenColumns`), the avatar initials, and the priority/status
    lookup tables. */
module TaskUtils {
  import opened Sequences
  import opened Strings
  import opened KanbanTypes

  // ---------------------------------------------------------------------------
  // Reordering within a column and moving between columns
  // ---------------------------------------------------------------------------

  /** The final position of the dragged id in a column of `n` ids when the
      target index is `j`: `j` counts against the list with the id already
      taken out, so it is clamped to `n - 1`. */
  function ReorderTarget(n: nat, j: nat): nat
    requires n > 0
  {
    Clamp(j, n - 1)
  }

  /** `reorderTasks`: splice the id at `i` out, then splice it back in at `j`
      of the shortened list. */
  function Reorder(s: seq<string>, i: nat, j: nat): (r: seq<string>)
    requires i < |s|
    ensures |r| == |s|
    ensures multiset(r) == multiset(s)
    ensures r[ReorderTarget(|s|, j)] == s[i]
    ensures RemoveAt(r, ReorderTarget(|s|, j)) == RemoveAt(s, i)
  {
    InsertAt(RemoveAt(s, i), j, s[i])
  }

  /** Dropping an id where it was picked up leaves the column as it was. */
  lemma ReorderSameIndex(s: seq<string>, i: nat)
    requires i < |s|
    ensures Reorder(s, i, i) == s
  {
    InsertAtRemoveAt(s, i);
  }

  /** Dragging the id back from its new place to its old index undoes the reorder. */
  lemma ReorderUndo(s: seq<string>, i: nat, j: nat)
    requires i < |s|
    ensures Reorder(Reorder(s, i, j), ReorderTarget(|s|, j), i) == s
  {
    InsertAtRemoveAt(s, i);
  }

  /** The target index counts against the shortened list: moving the first of
      four ids to index 2 puts it third. */
  lemma ReorderExample(a: string, b: string, c: string, d: string)
    ensures Reorder([a, b, c, d], 0, 2) == [b, c, a, d]
  {
    RemoveFirstOfFour(a, b, c, d);
    InsertThirdOfFour(b, c, d, a);
  }

  lemma RemoveFirstOfFour(a: string, b: string, c: string, d: string)
    ensures RemoveAt([a, b, c, d], 0) == [b, c, d]
  {
    assert [a, b, c, d][1..] == [b, c, d];
  }

  lemma InsertThirdOfFour(b: string, c: string, d: string, a: string)
    ensures InsertAt([b, c, d], 2, a) == [b, c, a, d]
  {
    assert [b, c, d][..2] == [b, c];
    assert [b, c, d][2..] == [d];
  }

  /** The two sequences `moveTaskBetweenColumns` returns. */
  datatype Moved = Moved(source: seq<string>, destination: seq<string>)

  /** `moveTaskBetweenColumns`: the id at `i` leaves the source and enters the
      destination before position `Clamp(j, |dst|)`; the inputs are copied, not
      changed. */
  function MoveBetweenColumns(src: seq<string>, dst: seq<string>, i: nat, j: nat): (r: Moved)
    requires i < |src|
    ensures |r.source| == |src| - 1 && |r.destination| == |dst| + 1
    ensures forall k :: 0 <= k < i ==> r.source[k] == src[k]
    ensures forall k :: i <= k < |r.source| ==> r.source[k] == src[k + 1]
    ensures r.destination[Clamp(j, |dst|)] == src[i]
    ensures RemoveAt(r.destination, Clamp(j, |dst|)) == dst
    ensures multiset(r.source) + multiset(r.destination) == multiset(src) + multiset(dst)
  {
    Moved(RemoveAt(src, i), InsertAt(dst, j, src[i]))
  }

  /** Moving the id back from where it landed to its old index restores both columns. */
  lemma MoveBetweenColumnsUndo(src: seq<string>, dst: seq<string>, i: nat, j: nat)
    requires i < |src|
    ensures var m := MoveBetweenColumns(src, dst, i, j);
            MoveBetweenColumns(m.destination, m.source, Clamp(j, |dst|), i) == Moved(dst, src)
  {
    InsertAtRemoveAt(src, i);
  }

  // ---------------------------------------------------------------------------
  // Initials
  // ---------------------------------------------------------------------------

  /** `parts.map(part => part[0]).join('')`: an empty part yields `undefined`,
      which `join` renders as nothing. */
  function Heads(parts: seq<string>): seq<char>
  {
    if |parts| == 0 then []
    else (if |parts[0]| > 0 then [parts[0][0]] else []) + Heads(parts[1..])
  }

  /** Reference reading of the initials: every non-space character that follows
      a space or starts the string (`atStart` says whether the character before
      `s` was a space or there was none). */
  function WordStarts(s: string, atStart: bool): (r: seq<char>)
    ensures ' ' !in r
  {
    if |s| == 0 then []
    else if s[0] == ' ' then WordStarts(s[1..], true)
    else (if atStart then [s[0]] else []) + WordStarts(s[1..], false)
  }

  /** The first characters of the pieces of `split(' ')` are exactly the word starts. */
  lemma {:induction false} HeadsOfSplit(s: string)
    ensures Heads(Split(s, ' ')) == WordStarts(s, true)
    ensures Heads(Split(s, ' ')[1..]) == WordStarts(s, false)
  {
    if |s| > 0 {
      HeadsOfSplit(s[1..]);
      var rest := Split(s[1..], ' ');
      if s[0] == ' ' {
        assert Split(s, ' ') == [""] + rest;
        assert ([""] + rest)[1..] == rest;
      } else {
        var parts := [[s[0]] + rest[0]] + rest[1..];
        assert Split(s, ' ') == parts;
        assert parts[1..] == rest[1..];
        assert Heads(rest) == (if |rest[0]| > 0 then [rest[0][0]] else []) + Heads(rest[1..]);
      }
    }
  }

  /** `getInitials`: the upper-cased first letters of the space-separated words,
      at most two of them. */
  function Initials(name: string): (r: string)
    ensures |r| <= 2
    ensures r == Take(ToUpper(WordStarts(name, true)), 2)
    ensures ' ' !in r
  {
    HeadsOfSplit(name);
    var r := Take(ToUpper(Heads(Split(name, ' '))), 2);
    assert forall i :: 0 <= i < |r| ==> r[i] == UpperChar(WordStarts(name, true)[i]);
    r
  }

  // ---------------------------------------------------------------------------
  // Lookup tables
  // ---------------------------------------------------------------------------

  /** The string key of a priority, as used in the type and the filter menu. */
  function PriorityKey(p: Priority): string
  {
    match p
    case Low => "low"
    case Medium => "medium"
    case High => "high"
    case Urgent => "urgent"
  }

  /** `getPriorityLabel`. */
  function PriorityLabel(p: Priority): (r: string)
    ensures |r| > 0 && r[1..] == PriorityKey(p)[1..]
    ensures r[0] == UpperChar(PriorityKey(p)[0])
  {
    match p
    case Low => "Low"
    case Medium => "Medium"
    case High => "High"
    case Urgent => "Urgent"
  }

  /** `getPriorityColor`: every entry of the table is the same three classes
      built from the priority's key. */
  function PriorityColor(p: Priority): (r: string)
    ensures StartsWith(r, "border-l-4 border-priority-" + PriorityKey(p))
  {
    var k := PriorityKey(p);
    var head := "border-l-4 border-priority-" + k;
    var r := head + " bg-priority-" + k + "/5 text-priority-" + k;
    assert r == head + (" bg-priority-" + k + "/5 text-priority-" + k);
    assert r[..|head|] == head;
    r
  }

  /** `getStatusColor`. */
  function StatusColor(s: TaskStatus): (r: string)
    ensures StartsWith(r, "bg-status-")
  {
    match s
    case Todo => "bg-status-todo text-foreground"
    case InProgress => "bg-status-progress text-white"
    case Review => "bg-status-review text-white"
    case Done => "bg-status-done text-white"
  }

  /** The first letter after the border prefix is the priority key's. */
  lemma ColorNamesKey(p: Priority)
    ensures |PriorityColor(p)| > 27 && PriorityColor(p)[27] == PriorityKey(p)[0]
  {
    var head := "border-l-4 border-priority-" + PriorityKey(p);
    assert PriorityColor(p)[..|head|] == head;
    assert head[27] == PriorityKey(p)[0];
  }

  /** The label, priority-colour and status-colour tables tell the values of
      their enums apart. */
  lemma LookupsInjective(p: Priority, q: Priority, s: TaskStatus, t: TaskStatus)
    ensures p != q ==> PriorityLabel(p) != PriorityLabel(q)
    ensures p != q ==> PriorityColor(p) != PriorityColor(q)
    ensures s != t ==> StatusColor(s) != StatusColor(t)
  {
    if p != q {
      assert PriorityLabel(p)[0] != PriorityLabel(q)[0] || |PriorityLabel(p)| != |PriorityLabel(q)|;
      ColorNamesKey(p);
      ColorNamesKey(q);
      assert PriorityKey(p)[0] != PriorityKey(q)[0];
    }
    if s != t {
      assert StatusColor(s)[10] != StatusColor(t)[10] || StatusColor(s)[12] != StatusColor(t)[12];
    }
  }
}
